=== FILE: README.md ===
# LED-strip drivers, BMP085 and RTC memory of the NodeMCU firmware, in Dafny

This project models the pure logic inside five C files of the NodeMCU
firmware for the ESP8266. Each file is a driver or a Lua module.

- **Single-wire WS2812/WS2811 encoders.** These are `ws2812_write`
  (`app/modules/ws2812.c`) and `ws281x_write` (`app/driver/ws281x.c`). A byte
  buffer goes out bit by bit, most significant bit first. Each bit becomes one
  high pulse on a GPIO pin. The pulse is long (`t1h`) for a 1 and short (`t0h`)
  for a 0. Consecutive rising edges are at least `ttot` CPU cycles apart. All
  times are measured by busy-waiting on the 32-bit cycle counter.
- **The `ws2812` Lua module.** `write` sends a buffer as it is. `writergb`
  copies the buffer, drops an incomplete trailing triplet and swaps R and G.
  `writedual` drives two strips from the two halves of one buffer. The two
  pins share their rising edges.
- **The WS2801 driver (`app/modules/ws2801.c`).** `init` chooses between two
  modes. One bit-bangs a clock line and a data line through the GPIO
  set/clear registers. The other uses the hardware SPI port. `write`
  serialises a buffer in whichever mode is active.
- **The BMP085 module (`app/modules/bmp085.c`).** It reads big-endian 16-bit
  registers, signed and unsigned. `init` checks its arguments and loads the
  eleven-word calibration table. `temperature` clamps its oversampling setting.
- **The RTC memory module (`app/modules/rtcmem.c`).** `read32` and `write32`
  give bounds-checked access to consecutive 32-bit words.

## How the model is built

- **The cycle counter is a finite sequence of readings** (`CycleClock`). Each
  read takes the next reading. A busy-wait (`Spin`) stops at the first reading
  whose wrap-safe distance (`Elapsed`, the difference modulo 2^32) reaches the
  wait. When the readings run out, the encoder returns `None`. On an ideal
  counter (`Ticking`, one cycle per read) the waits are exact, and enough
  readings always suffice.
- **Each encoder has a functional reference.** `PulseTrain.Emit` and
  `DualTrain.EmitDual` say what the encoder produces. The methods mirror the C
  loops: the byte pointer, the `0x80` mask shifted right, the two spins per
  bit, and the four-way split on a bit pair. Each method is proved equal to its
  reference.
- **Each encoder is checked against a receiver.** `PulseTrain.Decode` reads a 1
  whenever a pulse stays high for at least `t1h`. The delivery lemmas show that
  decoding, then packing the bits back into bytes, returns the bytes that were
  sent.
- **The WS2801 GPIO path is a trace of register writes** (`Ws2801.Event`). The
  trace is replayed on the clock and data lines. The receiver latches the data
  line on each rising clock edge (`Ws2801.Observe`). The SPI path is a trace of
  bytes.
- **The BMP085 sensor is a function from register number to byte.** `r8u`'s bus
  transaction becomes a list of I2C operations whose register pointers can be
  read back.
- **The RTC user memory is a sequence of words.** Its length is the number of
  user words.
- **Lua arguments are `LuaArgs.Arg` values**, either a number or not a number.
  The conversions to `uint32_t` and `uint8_t` are explicit (`LuaArgs.U32`,
  `LuaArgs.U8`).

### Where the model follows the code rather than the comments

- `ws2812.writedual` with an odd length never sends the last byte. With fewer
  than two bytes, both pins send the same first byte (`Ws2812.StrandA`,
  `Ws2812.StrandB`).
- The single-wire encoders read the first byte before any end test. So a
  length of 0 still sends one byte: the string's terminating NUL in
  `ws2812.write ""`, and the copy's first byte in `writergb` (see Findings).
- `writergb` works on a copy. The caller's string is unchanged, whatever the
  comment above it says. In the model the input is an immutable sequence.

## Model

| member | source | states |
|---|---|---|
| `LuaArgs.U32` | app/modules/bmp085.c:52-57 | a Lua integer stored into a `uint32_t` is reduced modulo 2^32: the result lies below 2^32, differs from the integer by a multiple of 2^32, and so equals it when it already fits |
| `LuaArgs.U8` | app/modules/bmp085.c:91-94 | a Lua integer stored into a `uint8_t` is reduced modulo 256: the result lies below 256, differs from the integer by a multiple of 256 (so 256 becomes 0 and -1 becomes 255), and equals it when it already fits |
| `CycleClock.Elapsed` | app/modules/ws2812.c:44 | the unsigned difference `c - start_time` is the distance modulo 2^32, and it is zero exactly when the two readings are equal |
| `CycleClock.Spin` | app/modules/ws2812.c:44 | a busy-wait that ends does so at a reading at least `t` cycles after its start |
| `CycleClock.SpinIsFirst` | app/modules/ws2812.c:44 | the wait stops at the first such reading; if none comes, every reading was still short of `t` |
| `CycleClock.WaitUntil` | app/modules/ws2812.c:44 | the loop that reads the counter until the distance reaches `t` stops where the reference wait does |
| `CycleClock.SpinPending` | app/modules/ws2812.c:47 | on an ideal counter, a wait still pending ends exactly `t` cycles after its start, or fails when the readings run out first |
| `CycleClock.SpinWithin` | app/modules/ws2812.c:44 | on an ideal counter, `t` more readings are always enough for a wait of `t` |
| `Bits.StreamIndex` | app/modules/ws2812.c:49-54 | bit `j` of byte `b` sits at position `8b + j` of the stream: bytes in buffer order, bits most significant first |
| `Bits.PackBitStream` | app/modules/ws2812.c:38-56 | packing the bit stream eight bits at a time gives back the bytes |
| `Bits.BitIsShift` | app/modules/ws2812.c:39 | testing a byte against the mask at position `j` is testing bit `7 - j` |
| `Bits.TestBit` | app/modules/ws2812.c:39 | `pixel & mask` with the mask at position `j` is true exactly when bit `7 - j` of the byte, counted from the least significant, is set |
| `Bits.ShiftMask` | app/modules/ws2812.c:49 | `mask >>= 1` moves to the next position and gives zero after the eighth bit |
| `Timing.Ws2812Profile` | app/modules/ws2812.c:34-36 | at 80 and 160 MHz, `0 < t0h < t1h < ttot`, both high times lie in the datasheet windows, and the period is at least 1.25 us |
| `Timing.DualProfile` | app/modules/ws2812.c:149-153 | the dual writer's constants are ordered, `t01h < ttot`, and the period is at least 1.25 us |
| `Timing.DualMixedHighOutOfWindow` | app/modules/ws2812.c:153 | `t01h = t0h + t1h` lies outside the T1H window at both clock rates (84 cycles at 80 MHz), while `t1h` lies inside it |
| `Timing.Ws281xProfileAsWritten` | app/driver/ws281x.c:27-33 | the shared driver's constants as written are ordered and their high times lie in the windows |
| `Timing.Ws2811PeriodAsWrittenTooShort` | app/driver/ws281x.c:32 | divisor 667 gives 119 and 239 cycles, short of the 1.50 us a WS2811 needs |
| `Timing.Ws281xProfile` | app/driver/ws281x.c:27-33 | with divisor 666 each variant's period meets its floor: 1.25 us for WS2812, 1.50 us for WS2811 |
| `Timing.Ws2811SlowerThanWs2812` | app/driver/ws281x.c:29-33 | the WS2811 period is longer than the WS2812 one, and the high times do not depend on the variant, both as written and with the corrected divisor |
| `PulseTrain.Decode` | app/modules/ws2812.c:39-43 | a receiver reads a 1 exactly for the pulses high for at least the threshold, one bit per pulse |
| `PulseTrain.SendBit` | app/modules/ws2812.c:44-48 | one bit rises at least `ttot` after the previous rise and stays high at least the bit's high time |
| `PulseTrain.Emit` | app/modules/ws2812.c:38-56 | a finished encoding has one pulse per bit |
| `PulseTrain.EmitWellTimed` | app/modules/ws2812.c:44-47 | in every encoding, each pulse is high for at least `t1h` (1) or `t0h` (0), and each rise is at least `ttot` after the previous one, the first measured against `start_time = 0` |
| `PulseTrain.SendBitOnTickingClock` | app/modules/ws2812.c:44-48 | on an ideal counter, a bit is high for exactly its high time and rises exactly `ttot` after the previous rise |
| `PulseTrain.EmitOnTickingClock` | app/modules/ws2812.c:44-47 | on an ideal counter, every high time and every period is exact |
| `PulseTrain.EmitOnLongTickingClock` | app/modules/ws2812.c:38-56 | on an ideal counter, `Budget` readings per bit are enough to send the whole stream |
| `PulseTrain.DecodeEmit` | app/modules/ws2812.c:39-48 | a receiver decodes an encoding on an ideal counter back into the bits sent |
| `PulseTrain.EmitDelivers` | app/modules/ws2812.c:24-57 | with enough readings of an ideal counter, the strip receives exactly the bytes, with exact timing |
| `PulseTrain.SendOne` | app/modules/ws2812.c:44-48 | the two busy-waits and the pin writes of one bit produce the reference step |
| `PulseTrain.SendNext` | app/modules/ws2812.c:39-48 | one more bit extends the trace by one pulse; a stalled wait means the reference encoding fails too |
| `PulseTrain.ShiftOutByte` | app/modules/ws2812.c:38-55 | the mask loop from `0x80` down sends the byte's eight bits in order |
| `PulseTrain.EncodeBytes` | app/modules/ws2812.c:24-57 | the byte loop sends `pixels[..length]` (`pixels[..1]` when `length` is 0) as the reference encoding does |
| `DualTrain.DualHighPhase` | app/modules/ws2812.c:164-190 | after the shared rise, each pin stays high for its pair-dependent time, and equal bits fall together |
| `DualTrain.DualSendBit` | app/modules/ws2812.c:157-190 | a bit pair rises at least `ttot` after the previous rise, and each pin meets its pair-dependent high time |
| `DualTrain.EmitDual` | app/modules/ws2812.c:155-200 | a finished dual encoding has one pulse pair per bit pair |
| `DualTrain.EmitDualWellTimed` | app/modules/ws2812.c:157-190 | in every dual encoding, each pair rises at least `ttot` after the previous one and each pin meets its high time |
| `DualTrain.ChannelsWellTimed` | app/modules/ws2812.c:164-190 | when the 1-pin of a mixed pair stays high at least `t1h`, each pin on its own is a well-timed single-channel encoding |
| `DualTrain.DualPairOnTickingClock` | app/modules/ws2812.c:164-190 | on an ideal counter, each pin falls exactly its high time after the shared rise |
| `DualTrain.PairAgreeOnTickingClock` | app/modules/ws2812.c:164-169 | equal bits: both pins fall together after `t1h` (11) or `t0h` (00) |
| `DualTrain.PairDisagreeOnTickingClock` | app/modules/ws2812.c:170-183 | differing bits: the 0-pin falls after `t0h`, the 1-pin after the mixed high time |
| `DualTrain.DualSendBitOnTickingClock` | app/modules/ws2812.c:157-190 | on an ideal counter, a pair's high times and period are exact |
| `DualTrain.EmitDualOnTickingClock` | app/modules/ws2812.c:155-200 | on an ideal counter, every pair of a dual encoding is exactly timed |
| `DualTrain.EmitDualOnLongTickingClock` | app/modules/ws2812.c:155-200 | on an ideal counter, `Budget` readings per bit pair are enough |
| `DualTrain.FirstPeriodPending` | app/modules/ws2812.c:148 | with `start_time` read on entry, the first wait on an ideal counter ends at reading `ttot`, exactly `ttot` cycles after entry, or never when the readings end first |
| `DualTrain.ExactChannels` | app/modules/ws2812.c:164-190 | an exactly timed dual encoding is, pin by pin, an exactly timed single-channel one |
| `DualTrain.DecodeExact` | app/modules/ws2812.c:39-43 | a receiver decodes an exactly timed encoding back into its bits |
| `DualTrain.DualDelivers` | app/modules/ws2812.c:135-201 | with enough readings of an ideal counter, the dual encoding completes and is exactly timed |
| `DualTrain.DualDecodes` | app/modules/ws2812.c:135-201 | with the 1-pin falling at `t1h`, each strip decodes back to its own bytes |
| `DualTrain.HighPhase` | app/modules/ws2812.c:164-190 | the four branches of the C compute the reference high phase |
| `DualTrain.DualSendOne` | app/modules/ws2812.c:157-190 | the wait, the two rises and the high phase produce the reference pair step |
| `DualTrain.DualSendNext` | app/modules/ws2812.c:157-199 | one more bit pair extends the trace by one; a stalled wait means the reference fails too |
| `DualTrain.ShiftOutPair` | app/modules/ws2812.c:192-199 | the mask loop sends the eight bit pairs of two bytes in order |
| `DualTrain.HalfWidth` | app/modules/ws2812.c:143-144 | each pin walks `num_bytes / 2` bytes, and at least one |
| `DualTrain.FrameA` | app/modules/ws2812.c:142-145 | pin A's bytes are as many as the half width |
| `DualTrain.FrameB` | app/modules/ws2812.c:143-146 | pin B's bytes are as many as pin A's |
| `DualTrain.FrameBytes` | app/modules/ws2812.c:142-146 | pin A's byte `p` is `pixels[p]`, and pin B's is `pixels[num_bytes / 2 + p]` |
| `DualTrain.ShiftOutFramePair` | app/modules/ws2812.c:192-199 | reading `*p1++` and `*p2++` sends the next byte of each half |
| `DualTrain.EncodeDual` | app/modules/ws2812.c:135-201 | the dual writer's loops produce the reference dual encoding of the two halves |
| `Ws2812.Write` | app/modules/ws2812.c:113-128 | `ws2812.write` sends the string (its NUL when empty) with `8 * length` well-timed pulses |
| `Ws2812.WriteDelivers` | app/modules/ws2812.c:113-128 | with enough readings of an ideal counter, the strip receives exactly the string, with exact timing |
| `Ws2812.SwapIndex` | app/modules/ws2812.c:85-90 | the swap keeps each byte inside its triplet, moves the first two bytes of each triplet and leaves exactly the third in place |
| `Ws2812.GrbFrame` | app/modules/ws2812.c:80-90 | the reordered frame holds `length - length % 3` bytes |
| `Ws2812.GrbFrameAt` | app/modules/ws2812.c:84-90 | frame byte `i` is input byte `SwapIndex(i)`: `3k` and `3k+1` exchanged, `3k+2` unchanged |
| `Ws2812.GrbFrameInvolution` | app/modules/ws2812.c:84-90 | swapping twice restores a buffer of whole triplets |
| `Ws2812.GrbFrameExamples` | app/modules/ws2812.c:67-69 | the documented examples: red `255,0,0` goes out as `0,255,0`, and so on |
| `Ws2812.GrbFrameSnoc` | app/modules/ws2812.c:85-90 | appending one triplet `r, g, b` appends `g, r, b` |
| `Ws2812.SwapPair` | app/modules/ws2812.c:86-89 | the loop body swaps bytes `i` and `i + 1` of the current triplet |
| `Ws2812.CopyAndSwap` | app/modules/ws2812.c:76-90 | the copy holds the reordered whole triplets, followed by the untouched tail |
| `Ws2812.GrbFrameDropsTail` | app/modules/ws2812.c:80-81 | the incomplete trailing triplet plays no part in the frame |
| `Ws2812.WriteRgbAsWritten` | app/modules/ws2812.c:70-104 | `writergb` as written sends the reordered frame, or the first byte when there is no whole triplet |
| `Ws2812.RgbPartialTripletSent` | app/modules/ws2812.c:80-98 | with one or two bytes the frame is empty, yet eight pulses carrying the first byte go out |
| `Ws2812.WriteRgb` | app/modules/ws2812.c:70-104 | `writergb` sends exactly the reordered whole triplets, well timed, and nothing when there are none |
| `Ws2812.WriteRgbDelivers` | app/modules/ws2812.c:83-98 | with enough readings of an ideal counter, the strip receives the triplets in G R B order |
| `Ws2812.StrandA` | app/modules/ws2812.c:142-145 | pin A's bytes are the first half of the string |
| `Ws2812.StrandB` | app/modules/ws2812.c:143-146 | pin B's bytes are the next `n / 2` bytes |
| `Ws2812.StrandsCover` | app/modules/ws2812.c:192-195 | the two halves cover the string when its length is even and lose the last byte when it is odd |
| `Ws2812.WriteDualAsWritten` | app/modules/ws2812.c:204-224 | `writedual` as written: the 1-pin of a mixed pair stays high `t01h`; rises still keep the period |
| `Ws2812.WriteDual` | app/modules/ws2812.c:135-201 | with the 1-pin falling at `t1h`, each pin is a well-timed encoding of its strand |
| `Ws2812.WriteDualDelivers` | app/modules/ws2812.c:135-201 | with enough readings of an ideal counter, each strip decodes back to its own strand |
| `Ws2812.MixedPairScenario` | app/modules/ws2812.c:170-183 | for the string `0x80, 0x00` at 80 MHz, pin A is high 84 cycles as written (outside T1H) and 56 when corrected |
| `Ws281x.Write` | app/driver/ws281x.c:17-54 | the shared driver as written sends `pixels[..length]` (one byte when `length` is 0) as `8 * bytes` pulses, well timed for the variant's profile as written, whose WS2811 period is 119 (80 MHz) or 239 (160 MHz) cycles |
| `Ws281x.WriteDelivers` | app/driver/ws281x.c:35-53 | with enough readings of an ideal counter, the driver as written delivers exactly those bytes, every period exactly its `ttot` as written |
| `Ws281x.WriteCorrected` | app/driver/ws281x.c:27-53 | with divisor 666 the driver sends the same frame, well timed, and its period meets the variant's floor: 1.25 us for WS2812, 1.50 us for WS2811 |
| `Ws281x.CorrectionKeepsWs2812` | app/driver/ws281x.c:29-33 | the correction leaves the WS2812 profile unchanged and lengthens the WS2811 period by one cycle |
| `Ws2801.PinMask` | app/modules/ws2801.c:68-69 | a pin's mask `1 << pin` is never zero |
| `Ws2801.PinMasksDisjoint` | app/modules/ws2801.c:68-69 | two pins' masks share no bit exactly when the pins differ |
| `Ws2801.InitGpio` | app/modules/ws2801.c:66-85 | GPIO setup clears the SPI flag, sets the two masks and returns 0 |
| `Ws2801.Init` | app/modules/ws2801.c:111-131 | two numbers select GPIO mode on those pins and no number the pins 0 and 2, both returning 0 after one write that clears both lines; the single number -1 selects SPI mode, keeping the old masks and returning the SPI setup result; any other single number fails with "wrong arg range" |
| `Ws2801.InitDefault` | app/modules/ws2801.c:125-127 | with no number, `init` is `init(0, 2)` |
| `Ws2801.ObserveBit` | app/modules/ws2801.c:29-35 | one bit's three register writes give one rising clock edge that latches the bit, and leave the clock low |
| `Ws2801.ObserveBits` | app/modules/ws2801.c:28-36 | a run of bits is latched in order, most significant first, and leaves the clock low |
| `Ws2801.StripDelivers` | app/modules/ws2801.c:39-44 | a strip gives `8 * len` clock pulses that latch the bytes in order, then leaves data and clock low |
| `Ws2801.SendByte` | app/modules/ws2801.c:26-37 | the mask loop writes data, clock high and clock low for each bit, most significant first |
| `Ws2801.Strip` | app/modules/ws2801.c:39-44 | the strip loop sends `len` bytes in order, then drives data low |
| `Ws2801.SpiDelivers` | app/modules/ws2801.c:87-91 | the SPI path sends each byte once, in order |
| `Ws2801.SpiLeavesLines` | app/modules/ws2801.c:87-91 | the SPI path writes neither GPIO line |
| `Ws2801.StripHspi` | app/modules/ws2801.c:87-91 | the SPI loop sends the first `len` bytes |
| `Ws2801.Sent` | app/modules/ws2801.c:145 | the `u16` length parameter keeps a string shorter than 64 KiB whole, and cuts a longer one to its first `length % 65536` bytes |
| `Ws2801.Write` | app/modules/ws2801.c:140-156 | `write` takes the path the mode flag selects and returns the string's full length |
| `Ws2801.GpioWriteDelivers` | app/modules/ws2801.c:144-151 | after GPIO `init` on distinct pins, the lines start low and a strip latches exactly the buffer |
| `Ws2801.HspiWriteDelivers` | app/modules/ws2801.c:120-121 | after `init(-1)`, `write` puts exactly the buffer on the SPI port |
| `Ws2801.LongWriteTruncated` | app/modules/ws2801.c:144-145 | in SPI mode, a 64 KiB string sends nothing, as its length wraps to 0 |
| `Bmp085.R8uPoints` | app/modules/bmp085.c:26-38 | one `r8u` transaction writes the register pointer once, the register asked for |
| `Bmp085.R16uPoints` | app/modules/bmp085.c:40-44 | `r16u` reads `reg` first, then `reg + 1` |
| `Bmp085.R16u` | app/modules/bmp085.c:40-44 | the 16-bit word lies in `[0, 65535]` |
| `Bmp085.R16uSplits` | app/modules/bmp085.c:41-43 | the high byte of the word is the byte at `reg`, and the low byte is the byte at `reg + 1` |
| `Bmp085.R16` | app/modules/bmp085.c:46-49 | the signed word lies in `[-32768, 32767]`, agrees with the unsigned one modulo 2^16, and is negative exactly when the high byte's top bit is set |
| `Bmp085.CalibrationLayout` | app/modules/bmp085.c:67-77 | word `k` of the table comes from register `0xAA + 2k`, unsigned for AC4 to AC6 and signed otherwise |
| `Bmp085.CalOpsPoint` | app/modules/bmp085.c:67-77 | the load reads registers `0xAA` to `0xBF` once each, in ascending order |
| `Bmp085.Init` | app/modules/bmp085.c:51-88 | non-numbers fail with "wrong arg range", a zero pin with "no i2c for D0", both before any bus traffic; otherwise the table is loaded |
| `Bmp085.OssAsWritten` | app/modules/bmp085.c:90-98 | the setting as written is 0 without a number argument, at most 3, 3 whenever the stored byte exceeds 3, and 0 to 3 pass unchanged |
| `Bmp085.OssWraps` | app/modules/bmp085.c:94-97 | setting 256 wraps to 0 as written, where the clamp promises 3; setting -1 wraps to 255 and so gives 3, where the clamp gives 0 |
| `Bmp085.Oss` | app/modules/bmp085.c:91-98 | the clamp: 0 by default, 3 for anything above 3, 0 to 3 unchanged, and 0 (the nearest setting) for a negative value |
| `Bmp085.OssAgreesOnBytes` | app/modules/bmp085.c:93-97 | the two agree on every setting below 256 |
| `RtcMem.Window` | app/modules/rtcmem.c:17-22 | from a valid index, `min(n, NUM - idx)` words in ascending order; none from an invalid index or when `n <= 0` |
| `RtcMem.Read32` | app/modules/rtcmem.c:6-24 | a non-number index fails; otherwise the loop returns the window, or nothing when the stack cannot grow |
| `RtcMem.Store` | app/modules/rtcmem.c:34-37 | words `idx` to `idx + n - 1` take the values and every other word is unchanged |
| `RtcMem.WriteGuardAsWritten` | app/modules/rtcmem.c:31-32 | for a non-negative index, or a call with no values, the guard as written is the intended range guard |
| `RtcMem.WriteGuardAdmitsNegative` | app/modules/rtcmem.c:29-32 | index -1 with one value passes the guard as written but is out of range |
| `RtcMem.Write32` | app/modules/rtcmem.c:27-39 | fails with "RTC mem would overrun" exactly when `idx + n` passes the end of the memory or a value would go to a negative index; a call with no values below the end returns the memory unchanged, at any index; otherwise stores the values |
| `RtcMem.WriteInRangeMeansInside` | app/modules/rtcmem.c:31-37 | when `idx + n` does not pass the end, the corrected guard admits the write exactly when every word the loop writes lies inside the memory |
| `RtcMem.ReadBack` | app/modules/rtcmem.c:17-37 | reading back the words just written returns them |
| `RtcMem.WriteNothing` | app/modules/rtcmem.c:30-37 | a write with no values changes nothing |

## Left out

- The Lua layer beyond argument values: stack pushes, `luaL_checklstring`, the
  registration maps and the `luaopen_*` functions. It is marshalling only. An
  argument that is not a number is a `NotNumber`. `luaL_checkinteger` on a
  non-number raises a Lua error, which is not modelled.
- Floating-point Lua numbers. Every number is an integer in the model, so the
  `double` to `int` truncation in `rtcmem` (`luaL_checknumber`,
  `lua_tonumber`) is not modelled.
- The C `int` width in `rtcmem`. `idx` and `n` are unbounded integers, so a sum
  `idx + n` that overflows is not modelled.
- The missing return statement of `ws2812_writedual_lua`. Its Lua result is
  undefined, and nothing is modelled for it.
- `app/modules/ws2811.c`. It only binds `ws2811.write` to the shared driver
  with `is_ws2812 = 0`. `app/include/driver/ws281x.h` only declares the driver
  and maps the two names to `is_ws2812`. That mapping is `Timing.Variant`.
- Pin configuration: `platform_gpio_mode`, `platform_gpio_write`,
  `enable_pin_mux`/`PIN_FUNC_SELECT` and the `pin_num` table. A pin mask is
  taken as given.
- `os_delay_us`, `os_intr_lock` and `os_intr_unlock`. These affect physical
  timing only. The model counts cycles and assumes nothing preempts the
  encoder.
- `system_get_cpu_freq`. It is a parameter restricted to 80 or 160
  (`Timing.CpuMhz`).
- The I2C and SPI hardware. `r8u`'s byte is the register function's value.
  `platform_spi_setup`'s result is the `spiSetup` parameter of `Ws2801.Init`.
  `platform_spi_send_recv`'s reply is ignored, as in the source.
- `lua_checkstack` in `read32`. Whether the stack can grow is the `room`
  parameter of `RtcMem.Read32`.
- `RTC_USER_MEM_NUM_DWORDS`, `rtc_mem_read` and `rtc_mem_write` (from
  `rtc/rtcaccess.h`, which is not part of this model). The memory is a
  sequence, and its length is the number of words.
- The pushing of a `uint32_t` word as a Lua integer.
- `c_malloc` and `c_free` in `writergb`. The copy is a new sequence, and an
  allocation failure is not modelled.
- `c_printf` in `bmp085_init`. It is output only.
- `temperature` beyond its oversampling argument, and `pressure` and
  `altitude`. Their bodies are empty in the source.
- `Ws2801.Init` requires both pins, when given, to be below 32. `1 << pin` on a
  32-bit value is undefined in C for larger shifts, so no behaviour is claimed
  for those pins.
- `Ws2812.WriteRgbAsWritten` requires a non-empty string. For an empty one the
  encoder would read the first byte of a zero-length allocation, which has no
  defined value.
- `Ws281x.Write` and `PulseTrain.EncodeBytes` require a buffer of at least one
  byte, because the C reads `pixels[0]` before any end test. The Lua callers
  always pass a string's bytes followed by its NUL, so that byte exists.
- `PulseTrain.Emit` and `DualTrain.EmitDual` promise a pulse count only. The
  timing of their pulses is stated by `PulseTrain.EmitWellTimed` and
  `DualTrain.EmitDualWellTimed`.

## Findings

| source | as written | input that shows it | evidently intended | confidence | as-written member | corrected member |
|---|---|---|---|---|---|---|
| app/modules/ws2812.c:80-98 | `length -= length % 3` can leave 0, and `ws2812_write` then still sends the copy's first byte | `ws2812.writergb(pin, string.char(255))` sends one byte, 255, unswapped | an incomplete triplet is ignored, so nothing is sent | not executed | `Ws2812.WriteRgbAsWritten` (with `Ws2812.RgbPartialTripletSent`) | `Ws2812.WriteRgb` |
| app/modules/bmp085.c:91-97 | the argument is stored into a `uint8` before the cap at 3 | `temperature(256)` gives setting 0; `temperature(-1)` gives 3 | values above 3 are capped at 3, the highest setting; a negative value lies below the lowest setting, and clamping it to the nearest one gives 0 (the source states nothing for negatives, so this half is a choice) | not executed | `Bmp085.OssAsWritten` (with `Bmp085.OssWraps`) | `Bmp085.Oss` |
| app/driver/ws281x.c:32 | `ttot = (1000 * f) / 667` truncates to 119 cycles at 80 MHz (239 at 160) | a WS2811 strip at 80 MHz gets a period of 1.4875 us | at least 1.50 us, as the comment on that line demands; divisor 666 gives 120 and 240 | not executed | `Ws281x.Write` (with `Timing.Ws281xProfileAsWritten`, `Timing.Ws2811PeriodAsWrittenTooShort`) | `Ws281x.WriteCorrected` (with `Timing.Ws281xProfile`) |
| app/modules/rtcmem.c:31-32 | only `idx + n <= RTC_USER_MEM_NUM_DWORDS` is tested | `rtcmem.write32(-1, 5)` passes the guard and writes word -1 | the written words lie inside the user memory, so `idx >= 0` is required too whenever a value is written | not executed | `RtcMem.WriteGuardAsWritten` (with `RtcMem.WriteGuardAdmitsNegative`) | `RtcMem.Write32` |
| app/modules/ws2812.c:153 | `t01h = t1h + t0h`, and the 1-pin of a differing pair falls `t01h` after the rise | `ws2812.writedual(a, b, string.char(0x80, 0x00))` at 80 MHz holds pin A high 84 cycles (1.05 us), with only 0.2 us low before the next rise | the 1-pin is high for `t1h` (56 cycles, 0.70 us), inside the T1H window of 0.70 +- 0.15 us quoted in the source | not executed | `Ws2812.WriteDualAsWritten` (with `Ws2812.MixedPairScenario`, `Timing.DualMixedHighOutOfWindow`) | `Ws2812.WriteDual` |

=== FILE: bits.dfy ===
/**
  Bytes and the most-significant-bit-first bit order in which every LED
  protocol of the firmware shifts them out.
 */
module Bits {

  type Byte = bv8

  /** The mask the bit loops hold at bit `j`: `0x80` shifted right `j` times. */
  function MaskAt(j: nat): Byte
    requires j <= 8
  {
    match j
    case 0 => 0x80 case 1 => 0x40 case 2 => 0x20 case 3 => 0x10
    case 4 => 0x08 case 5 => 0x04 case 6 => 0x02 case 7 => 0x01
    case _ => 0
  }

  /** Bit `j` of `b`, counting from the most significant bit (`j == 0`). */
  function Bit(b: Byte, j: nat): bool
    requires j < 8
  {
    b & MaskAt(j) != 0
  }

  /** The eight bits of one byte, in transmission order. */
  function ByteBits(b: Byte): (r: seq<bool>)
    ensures |r| == 8
  {
    [Bit(b, 0), Bit(b, 1), Bit(b, 2), Bit(b, 3), Bit(b, 4), Bit(b, 5), Bit(b, 6), Bit(b, 7)]
  }

  /** The bits of a buffer: bytes in buffer order, each most significant bit first. */
  function BitStream(bytes: seq<Byte>): (r: seq<bool>)
    ensures |r| == 8 * |bytes|
  {
    if |bytes| == 0 then []
    else ByteBits(bytes[0]) + BitStream(bytes[1..])
  }

  lemma ByteBitsAt(b: Byte, j: nat)
    requires j < 8
    ensures ByteBits(b)[j] == Bit(b, j)
  {
    if j == 0 {} else if j == 1 {} else if j == 2 {} else if j == 3 {}
    else if j == 4 {} else if j == 5 {} else if j == 6 {} else {}
  }

  /** Bit `j` of byte `b` of a buffer sits at position `8 * b + j` of its stream. */
  lemma {:induction false} StreamIndex(bytes: seq<Byte>, b: nat, j: nat)
    requires b < |bytes| && j < 8
    ensures 8 * b + j < |BitStream(bytes)|
    ensures BitStream(bytes)[8 * b + j] == Bit(bytes[b], j)
  {
    var s := BitStream(bytes);
    var head := ByteBits(bytes[0]);
    var tail := BitStream(bytes[1..]);
    assert s == head + tail;
    if b == 0 {
      ByteBitsAt(bytes[0], j);
      assert s[j] == head[j];
    } else {
      StreamIndex(bytes[1..], b - 1, j);
      assert s[8 * b + j] == tail[8 * (b - 1) + j];
      assert bytes[1..][b - 1] == bytes[b];
    }
  }

  /** The stream of a concatenation is the concatenation of the streams. */
  lemma {:induction false} BitStreamAppend(a: seq<Byte>, b: seq<Byte>)
    ensures BitStream(a + b) == BitStream(a) + BitStream(b)
  {
    if |a| > 0 {
      assert (a + b)[0] == a[0];
      assert (a + b)[1..] == a[1..] + b;
      BitStreamAppend(a[1..], b);
    } else {
      assert a + b == b;
    }
  }

  /** Positions `at` to `at + 7` of `bits` hold byte `v`, most significant bit first. */
  predicate CarriesByte(bits: seq<bool>, at: nat, v: Byte)
  {
    at + 8 <= |bits| && forall j :: 0 <= j < 8 ==> bits[at + j] == Bit(v, j)
  }

  /** Byte `b` of a buffer occupies positions `8 * b` to `8 * b + 7` of its stream. */
  lemma StreamByte(bytes: seq<Byte>, b: nat, at: nat)
    requires b < |bytes| && at == 8 * b
    ensures CarriesByte(BitStream(bytes), at, bytes[b])
  {
    forall j | 0 <= j < 8
      ensures BitStream(bytes)[at + j] == Bit(bytes[b], j)
    {
      StreamIndex(bytes, b, j);
    }
    StreamIndex(bytes, b, 7);
  }

  /** The value a receiver shifts in from eight bits, most significant first. */
  function ByteOf(s: seq<bool>): Byte
    requires |s| == 8
  {
    (if s[0] then 0x80 else 0) | (if s[1] then 0x40 else 0)
    | (if s[2] then 0x20 else 0) | (if s[3] then 0x10 else 0)
    | (if s[4] then 0x08 else 0) | (if s[5] then 0x04 else 0)
    | (if s[6] then 0x02 else 0) | (if s[7] then 0x01 else 0)
  }

  /** Regroup a received bit stream into bytes, MSB first; a trailing partial byte is dropped. */
  function Pack(bits: seq<bool>): (r: seq<Byte>)
    ensures |r| == |bits| / 8
  {
    if |bits| < 8 then [] else [ByteOf(bits[..8])] + Pack(bits[8..])
  }

  lemma ByteOfByteBits(b: Byte)
    ensures ByteOf(ByteBits(b)) == b
  {
  }

  /** Shifting bytes out MSB-first and shifting them back in recovers the buffer. */
  lemma {:induction false} PackBitStream(bytes: seq<Byte>)
    ensures Pack(BitStream(bytes)) == bytes
  {
    if |bytes| > 0 {
      var s := BitStream(bytes);
      assert s == ByteBits(bytes[0]) + BitStream(bytes[1..]);
      assert s[..8] == ByteBits(bytes[0]);
      assert s[8..] == BitStream(bytes[1..]);
      ByteOfByteBits(bytes[0]);
      PackBitStream(bytes[1..]);
    }
  }

  /** Selecting a bit with its mask is the same as shifting it down to the lowest position. */
  lemma BitIsShift(b: Byte, j: nat)
    requires j < 8
    ensures Bit(b, j) <==> (b >> (7 - j)) & 1 == 1
  {
    if j == 0 {} else if j == 1 {} else if j == 2 {} else if j == 3 {}
    else if j == 4 {} else if j == 5 {} else if j == 6 {} else {}
  }

  /** Shifting the mask right moves it to the next bit, and to zero after the last. */
  lemma MaskShift(j: nat)
    requires j < 8
    ensures MaskAt(j) >> 1 == MaskAt(j + 1)
    ensures MaskAt(j) != 0
    ensures MaskAt(j + 1) == 0 <==> j == 7
  {
  }

  /** The firmware's `pixel & mask` test, with the mask at bit `j`. */
  method TestBit(pixel: Byte, mask: Byte, ghost j: nat) returns (bit: bool)
    requires j < 8 && mask == MaskAt(j)
    ensures bit <==> (pixel >> (7 - j)) & 1 == 1
    ensures bit == Bit(pixel, j)
  {
    bit := pixel & mask != 0;
    BitIsShift(pixel, j);
  }

  /** The firmware's `mask >>= 1`, with the mask at bit `j`. */
  method ShiftMask(mask: Byte, ghost j: nat) returns (m: Byte)
    requires j < 8 && mask == MaskAt(j)
    ensures m == MaskAt(j + 1) && (m != 0 <==> j + 1 < 8)
  {
    MaskShift(j);
    m := mask >> 1;
  }
}

=== FILE: bmp085.dfy ===
/**
  The BMP085 pressure sensor module: 16-bit big-endian register reads over
  I2C, the calibration table `init` loads, and the oversampling argument of
  `temperature`.
 */
module Bmp085 {
  import opened Wrappers
  import opened LuaArgs

  /** A `uint8_t`: a register number or a register's contents. */
  type Octet = x: int | 0 <= x < 0x100

  /** The sensor's fixed 7-bit bus address. */
  const I2cAddr: Octet := 0x77

  /** What the sensor returns for a register: its register file as the bus reads it. */
  type Registers = Octet -> Octet

  /** The register after `reg`, as the `uint8_t` parameter receives `reg + 1`. */
  function Next(reg: Octet): Octet
  {
    (reg + 1) % 0x100
  }

  datatype Direction = Transmitter | Receiver

  /** One step of an I2C transaction driven by the master. */
  datatype I2cOp = Start | Address(addr: Octet, dir: Direction) | Send(b: Octet) | Recv(ack: bool) | Stop

  /** `r8u`: write the register pointer, then read one byte back. */
  function R8uOps(reg: Octet): (r: seq<I2cOp>)
    ensures |r| == 8
  {
    [Start, Address(I2cAddr, Transmitter), Send(reg), Stop,
     Start, Address(I2cAddr, Receiver), Recv(true), Stop]
  }

  /** `r16u`: the register, then the next one (the register number wraps as a `uint8_t`). */
  function R16uOps(reg: Octet): seq<I2cOp>
  {
    R8uOps(reg) + R8uOps(Next(reg))
  }

  /** The register pointers a sequence of transactions writes, in order. */
  function Pointers(ops: seq<I2cOp>): seq<Octet>
  {
    if |ops| == 0 then []
    else (if ops[0].Send? then [ops[0].b] else []) + Pointers(ops[1..])
  }

  lemma {:induction false} PointersAppend(a: seq<I2cOp>, b: seq<I2cOp>)
    ensures Pointers(a + b) == Pointers(a) + Pointers(b)
  {
    if |a| == 0 {
      assert a + b == b;
    } else {
      assert (a + b)[0] == a[0];
      assert (a + b)[1..] == a[1..] + b;
      PointersAppend(a[1..], b);
    }
  }

  /** Transactions that write no register pointer. */
  lemma {:induction false} PointersNone(ops: seq<I2cOp>)
    requires forall i :: 0 <= i < |ops| ==> !ops[i].Send?
    ensures Pointers(ops) == []
  {
    if |ops| > 0 {
      PointersNone(ops[1..]);
    }
  }

  /** One `r8u` points at its register once. */
  lemma R8uPoints(reg: Octet)
    ensures Pointers(R8uOps(reg)) == [reg]
  {
    var ops := R8uOps(reg);
    assert ops == ops[..2] + ([ops[2]] + ops[3..]);
    PointersAppend(ops[..2], [ops[2]] + ops[3..]);
    PointersAppend([ops[2]], ops[3..]);
    PointersNone(ops[..2]);
    PointersNone(ops[3..]);
    assert [ops[2]][1..] == [];
  }

  /** `r16u` reads the high byte's register first, then the following one. */
  lemma R16uPoints(reg: Octet)
    ensures Pointers(R16uOps(reg)) == [reg, Next(reg)]
  {
    PointersAppend(R8uOps(reg), R8uOps(Next(reg)));
    R8uPoints(reg);
    R8uPoints(Next(reg));
  }

  /**
    `r16u`: the byte at `reg` in the high half, the byte at the next register
    below it (the C shifts the first byte left by 8 and ors in the second,
    which for two bytes is this sum).
   */
  function R16u(regs: Registers, reg: Octet): (r: int)
    ensures 0 <= r < 0x1_0000
  {
    regs(reg) * 0x100 + regs(Next(reg))
  }

  /** The word splits back into the two bytes it was read from. */
  lemma R16uSplits(regs: Registers, reg: Octet)
    ensures R16u(regs, reg) / 0x100 == regs(reg)
    ensures R16u(regs, reg) % 0x100 == regs(Next(reg))
  {
  }

  /** `r16`: the same word reinterpreted as a two's-complement `int16_t`. */
  function R16(regs: Registers, reg: Octet): (r: int)
    ensures -0x8000 <= r < 0x8000
    ensures r % 0x1_0000 == R16u(regs, reg)
    ensures r < 0 <==> regs(reg) >= 0x80
  {
    var u := R16u(regs, reg);
    if u < 0x8000 then u else u - 0x1_0000
  }

  /** The eleven calibration words, in the order the data sheet lists them. */
  datatype Calibration = Calibration(
    ac1: int, ac2: int, ac3: int, ac4: int, ac5: int, ac6: int,
    b1: int, b2: int, mb: int, mc: int, md: int)

  const CalWords: nat := 11

  /** Calibration word `k` sits at register `0xAA + 2k`. */
  function CalRegister(k: nat): (r: Octet)
    requires k < CalWords
    ensures r == 0xAA + 2 * k
  {
    0xAA + 2 * k
  }

  /** AC4, AC5 and AC6 are unsigned; the other words are signed. */
  predicate Unsigned(k: nat)
  {
    3 <= k <= 5
  }

  /** Word `k` of a calibration table. */
  function Field(cal: Calibration, k: nat): int
    requires k < CalWords
  {
    match k
    case 0 => cal.ac1 case 1 => cal.ac2 case 2 => cal.ac3 case 3 => cal.ac4
    case 4 => cal.ac5 case 5 => cal.ac6 case 6 => cal.b1 case 7 => cal.b2
    case 8 => cal.mb case 9 => cal.mc case _ => cal.md
  }

  /** The table `init` fills in. */
  function Calibrate(regs: Registers): Calibration
  {
    Calibration(
      R16(regs, 0xAA), R16(regs, 0xAC), R16(regs, 0xAE),
      R16u(regs, 0xB0), R16u(regs, 0xB2), R16u(regs, 0xB4),
      R16(regs, 0xB6), R16(regs, 0xB8), R16(regs, 0xBA), R16(regs, 0xBC), R16(regs, 0xBE))
  }

  /**
    Every word of the table comes from its own register pair, read unsigned for
    AC4 to AC6 and signed otherwise; so each lies in the range of its C type.
   */
  lemma CalibrationLayout(regs: Registers, k: nat)
    requires k < CalWords
    ensures Field(Calibrate(regs), k)
      == if Unsigned(k) then R16u(regs, CalRegister(k)) else R16(regs, CalRegister(k))
    ensures Unsigned(k) ==> 0 <= Field(Calibrate(regs), k) < 0x1_0000
    ensures !Unsigned(k) ==> -0x8000 <= Field(Calibrate(regs), k) < 0x8000
  {
  }

  /** The transactions of the calibration load, from word `k` on. */
  function CalOps(k: nat): seq<I2cOp>
    requires k <= CalWords
    decreases CalWords - k
  {
    if k == CalWords then [] else R16uOps(CalRegister(k)) + CalOps(k + 1)
  }

  /** The registers from `0xAA + 2k` up to `0xBF`, in ascending order. */
  function Ascending(k: nat): (r: seq<Octet>)
    requires k <= CalWords
    ensures |r| == 2 * (CalWords - k)
  {
    seq(2 * (CalWords - k), i requires 0 <= i < 2 * (CalWords - k) => 0xAA + 2 * k + i)
  }

  /** The load visits every register from `0xAA` to `0xBF` once, in ascending order. */
  lemma {:induction false} CalOpsPoint(k: nat)
    requires k <= CalWords
    ensures Pointers(CalOps(k)) == Ascending(k)
    decreases CalWords - k
  {
    if k < CalWords {
      PointersAppend(R16uOps(CalRegister(k)), CalOps(k + 1));
      R16uPoints(CalRegister(k));
      CalOpsPoint(k + 1);
      assert [CalRegister(k), Next(CalRegister(k))] + Ascending(k + 1) == Ascending(k);
    }
  }

  /** A sensor set up by `init`: the bus pins, the table, and the bus traffic that loaded it. */
  datatype Sensor = Sensor(sda: nat, scl: nat, cal: Calibration, ops: seq<I2cOp>)

  /**
    `bmp085.init(sda, scl)`: both arguments must be numbers, and neither pin may
    be 0, before the bus is touched; then the table is loaded.
   */
  function Init(args: seq<Arg>, regs: Registers): (r: Result<Sensor>)
    ensures r.Failure? && r.error == "wrong arg range" <==> !ArgAt(args, 0).Number? || !ArgAt(args, 1).Number?
    ensures r.Failure? && r.error == "no i2c for D0" <==>
      ArgAt(args, 0).Number? && ArgAt(args, 1).Number?
      && (U32(ArgAt(args, 0).value) == 0 || U32(ArgAt(args, 1).value) == 0)
    ensures r.Success? ==> r.value.sda == U32(args[0].value) && r.value.scl == U32(args[1].value)
    ensures r.Success? ==> r.value.cal == Calibrate(regs) && Pointers(r.value.ops) == Ascending(0)
  {
    if !ArgAt(args, 0).Number? || !ArgAt(args, 1).Number? then Failure("wrong arg range")
    else
      var sda := U32(ArgAt(args, 0).value);
      var scl := U32(ArgAt(args, 1).value);
      if scl == 0 || sda == 0 then Failure("no i2c for D0")
      else
        CalOpsPoint(0);
        Success(Sensor(sda, scl, Calibrate(regs), CalOps(0)))
  }

  /** The highest oversampling setting the sensor supports. */
  const OssMax: nat := 3

  /**
    The oversampling setting as written: 0 by default, otherwise the argument
    stored into a `uint8_t` and then capped at 3.
   */
  function OssAsWritten(arg: Arg): (r: nat)
    ensures r <= OssMax
    ensures arg.Number? && 0 <= arg.value <= OssMax ==> r == arg.value
    ensures arg.Number? && U8(arg.value) > OssMax ==> r == OssMax
    ensures !arg.Number? ==> r == 0
  {
    match arg
    case NotNumber => 0
    case Number(v) => if U8(v) > OssMax then OssMax else U8(v)
  }

  /**
    A setting of 256 wraps to 0 before the cap, where the cap promises 3;
    a setting of -1 wraps to 255 and so becomes 3, where the clamp gives 0.
   */
  lemma OssWraps()
    ensures OssAsWritten(Number(256)) == 0
    ensures Oss(Number(256)) == OssMax
    ensures OssAsWritten(Number(-1)) == OssMax
    ensures Oss(Number(-1)) == 0
  {
  }

  /**
    The oversampling setting with the cap applied to the argument itself:
    settings above 3 become 3, negative ones 0.
   */
  function Oss(arg: Arg): (r: nat)
    ensures r <= OssMax
    ensures arg.Number? && 0 <= arg.value <= OssMax ==> r == arg.value
    ensures arg.Number? && arg.value > OssMax ==> r == OssMax
    ensures !arg.Number? ==> r == 0
  {
    match arg
    case NotNumber => 0
    case Number(v) => if v > OssMax as int then OssMax else if v < 0 then 0 else v
  }

  /** The two agree on every setting a `uint8_t` holds unchanged. */
  lemma OssAgreesOnBytes(v: int)
    requires 0 <= v < 0x100
    ensures OssAsWritten(Number(v)) == Oss(Number(v))
  {
  }
}

=== FILE: cycle_clock.dfy ===
/**
  The free-running 32-bit cycle counter of the CPU (`rsr ccount`).

  The counter is seen through a finite window of readings: every read of the
  counter consumes the next element of a `seq<Reading>`. A busy-wait
  `while ((c = now()) - start) < t;` becomes `Spin`, which returns the index of
  the first reading that ends the wait, or `None` when the window is used up
  before the wait ends.
 */
module CycleClock {
  import opened Wrappers

  const Modulus: int := 0x1_0000_0000

  /** A raw counter value. */
  type Reading = x: int | 0 <= x < Modulus

  /** Unsigned 32-bit `now - since`: the cycles elapsed since `since`, across one wrap. */
  function Elapsed(now: Reading, since: Reading): (d: Reading)
    ensures d == (now - since) % Modulus
    ensures d == 0 <==> now == since
  {
    if since <= now then now - since else now - since + Modulus
  }

  /** Busy-wait from reading index `from` until `t` cycles have elapsed since `since`. */
  function Spin(clock: seq<Reading>, from: nat, since: Reading, t: nat): (r: Option<nat>)
    ensures r.Some? ==> from <= r.value < |clock| && Elapsed(clock[r.value], since) >= t
    decreases |clock| - from
  {
    if from >= |clock| then None
    else if Elapsed(clock[from], since) >= t then Some(from)
    else Spin(clock, from + 1, since, t)
  }

  /**
    The wait ends at the first reading that shows `t` elapsed cycles, and it
    fails only if no reading left in the window does.
   */
  lemma {:induction false} SpinIsFirst(clock: seq<Reading>, from: nat, since: Reading, t: nat)
    ensures Spin(clock, from, since, t).Some? ==>
      forall j :: from <= j < Spin(clock, from, since, t).value ==> Elapsed(clock[j], since) < t
    ensures Spin(clock, from, since, t).None? ==>
      forall j :: from <= j < |clock| ==> Elapsed(clock[j], since) < t
    decreases |clock| - from
  {
    if from < |clock| && Elapsed(clock[from], since) < t {
      SpinIsFirst(clock, from + 1, since, t);
    }
  }

  /** The spin loop as the firmware writes it: read, compare, repeat. */
  method WaitUntil(clock: seq<Reading>, from: nat, since: Reading, t: nat) returns (r: Option<nat>)
    ensures r == Spin(clock, from, since, t)
  {
    var k := from;
    while k < |clock| && Elapsed(clock[k], since) < t
      invariant from <= k
      invariant Spin(clock, k, since, t) == Spin(clock, from, since, t)
      decreases |clock| - k
    {
      k := k + 1;
    }
    if k < |clock| {
      r := Some(k);
    } else {
      r := None;
    }
  }

  /** Reading `j` of the window; the name only serves as the trigger of `Ticking`. */
  function ReadingAt(clock: seq<Reading>, j: nat): Reading
    requires j < |clock|
  {
    clock[j]
  }

  /** An ideal counter: it advances by exactly one cycle between consecutive reads. */
  predicate Ticking(clock: seq<Reading>)
  {
    forall j :: 0 <= j < |clock| ==> ReadingAt(clock, j) == (clock[0] + j) % Modulus
  }

  function Max(a: int, b: int): int
  {
    if a < b then b else a
  }

  /** On an ideal counter, elapsed time grows by one per read (modulo the wrap). */
  lemma ElapsedAhead(clock: seq<Reading>, i: nat, j: nat, since: Reading)
    requires Ticking(clock) && i <= j < |clock|
    ensures Elapsed(clock[j], since) == (Elapsed(clock[i], since) + (j - i)) % Modulus
  {
    var c0: int := clock[0];
    assert ReadingAt(clock, i) == (c0 + i) % Modulus;
    assert ReadingAt(clock, j) == (c0 + j) % Modulus;
    ModAbsorb(c0 + i, -(since as int));
    ModAbsorb(c0 + j, -(since as int));
    ModAbsorb(c0 + i - since, j - i);
  }

  /** On an ideal counter, readings `d` reads apart are `d` cycles apart (for `d` below the wrap). */
  lemma ElapsedReads(clock: seq<Reading>, i: nat, d: nat)
    requires Ticking(clock) && i + d < |clock| && d < Modulus
    ensures Elapsed(clock[i + d], clock[i]) == d
  {
    ElapsedAhead(clock, i, i + d, clock[i]);
    assert Elapsed(clock[i], clock[i]) == 0;
  }

  /** Reducing a summand modulo `Modulus` first does not change the sum's residue. */
  lemma ModAbsorb(a: int, b: int)
    ensures (a % Modulus + b) % Modulus == (a + b) % Modulus
  {
    var q := a / Modulus;
    assert a == q * Modulus + a % Modulus;
    assert a + b == (a % Modulus + b) + q * Modulus;
  }

  /** On an ideal counter, a wait that has already expired ends at the first read. */
  lemma SpinExpired(clock: seq<Reading>, from: nat, since: Reading, t: nat)
    requires from < |clock| && Elapsed(clock[from], since) >= t
    ensures Spin(clock, from, since, t) == Some(from)
  {
  }

  /**
    On an ideal counter a wait that has not yet expired ends exactly when `t`
    cycles have elapsed, provided the window holds that reading; otherwise it fails.
   */
  lemma SpinPending(clock: seq<Reading>, from: nat, since: Reading, t: nat)
    requires Ticking(clock) && from < |clock| && t < Modulus
    requires Elapsed(clock[from], since) < t
    ensures var k := from + t - Elapsed(clock[from], since);
      && (k < |clock| ==> Spin(clock, from, since, t) == Some(k) && Elapsed(clock[k], since) == t)
      && (k >= |clock| ==> Spin(clock, from, since, t) == None)
  {
    var e := Elapsed(clock[from], since);
    var k := from + (t - e);
    var r := Spin(clock, from, since, t);
    SpinIsFirst(clock, from, since, t);
    if k < |clock| {
      ElapsedAhead(clock, from, k, since);
      if r.Some? && r.value < k {
        ElapsedAhead(clock, from, r.value, since);
      }
    } else if r.Some? {
      ElapsedAhead(clock, from, r.value, since);
    }
  }

  /** On an ideal counter, a wait of `t` cycles ends within `t` reads. */
  lemma SpinWithin(clock: seq<Reading>, from: nat, since: Reading, t: nat)
    requires Ticking(clock) && t < Modulus && from + t < |clock|
    ensures Spin(clock, from, since, t).Some?
    ensures Spin(clock, from, since, t).value <= from + t
  {
    if Elapsed(clock[from], since) < t {
      SpinPending(clock, from, since, t);
    } else {
      SpinExpired(clock, from, since, t);
    }
  }

  /**
    On an ideal counter, a wait of `t >= 1` cycles measured from reading `k`
    (a rising edge) ends exactly at reading `k + t`.
   */
  lemma SpinFromEdge(clock: seq<Reading>, k: nat, t: nat)
    requires Ticking(clock) && k + 1 < |clock| && 1 <= t < Modulus
    ensures k + t < |clock| ==> Spin(clock, k + 1, clock[k], t) == Some(k + t) && Elapsed(clock[k + t], clock[k]) == t
    ensures k + t >= |clock| ==> Spin(clock, k + 1, clock[k], t) == None
  {
    ElapsedAhead(clock, k, k + 1, clock[k]);
    if t == 1 {
      SpinExpired(clock, k + 1, clock[k], t);
    } else {
      SpinPending(clock, k + 1, clock[k], t);
    }
  }

  /**
    On an ideal counter, a wait of `t` cycles measured from reading `k` (a
    rising edge) and resumed at a later reading `j` still ends exactly at
    reading `k + t`, as long as it had not expired by `j`.
   */
  lemma SpinFromRise(clock: seq<Reading>, k: nat, j: nat, t: nat)
    requires Ticking(clock) && k < j <= k + t && k < |clock| && t < Modulus
    ensures k + t < |clock| ==> Spin(clock, j, clock[k], t) == Some(k + t) && Elapsed(clock[k + t], clock[k]) == t
    ensures k + t >= |clock| ==> Spin(clock, j, clock[k], t) == None
  {
    if j < |clock| {
      ElapsedAhead(clock, k, j, clock[k]);
      if j - k == t {
        SpinExpired(clock, j, clock[k], t);
      } else {
        SpinPending(clock, j, clock[k], t);
      }
    }
  }
}

=== FILE: dual_train.dfy ===
/**
  The dual-channel WS2812 encoder (`ws2812_writedual`): two pins, A and B,
  driven in lock step. For every pair of bits both pins rise on the same
  counter reading once `ttot` cycles have passed since the previous rise.
  When the two bits agree, both pins fall together after that bit's high
  time. When they disagree, the pin sending a 0 falls after `t0h`; the pin
  sending a 1 falls once a second wait, measured from the same rise, reaches
  `mixedHigh`.

  `mixedHigh` is the parameter that tells the firmware as written
  (`t01h = t0h + t1h`) apart from the corrected encoder (`t1h`).
 */
module DualTrain {
  import opened Wrappers
  import opened CycleClock
  import opened Bits
  import opened Timing
  import opened PulseTrain

  /** One bit period on both pins: a shared rising edge and one falling edge per pin. */
  datatype DualPulse = DualPulse(rise: Reading, fallA: Reading, fallB: Reading)

  datatype DualStep = DualStep(pulse: DualPulse, next: nat)

  datatype DualEmission = DualEmission(pulses: seq<DualPulse>, next: nat)

  function PinA(p: DualPulse): Pulse
  {
    Pulse(p.rise, p.fallA)
  }

  function PinB(p: DualPulse): Pulse
  {
    Pulse(p.rise, p.fallB)
  }

  /** What pin A alone shows. */
  function ChannelA(ps: seq<DualPulse>): (r: seq<Pulse>)
    ensures |r| == |ps| && forall i :: 0 <= i < |ps| ==> r[i] == PinA(ps[i])
  {
    seq(|ps|, i requires 0 <= i < |ps| => PinA(ps[i]))
  }

  /** What pin B alone shows. */
  function ChannelB(ps: seq<DualPulse>): (r: seq<Pulse>)
    ensures |r| == |ps| && forall i :: 0 <= i < |ps| ==> r[i] == PinB(ps[i])
  {
    seq(|ps|, i requires 0 <= i < |ps| => PinB(ps[i]))
  }

  /** The high time the encoder waits for on the pin carrying `mine` while the other pin carries `other`. */
  function DualHigh(prof: Profile, mixedHigh: nat, mine: bool, other: bool): nat
  {
    if mine == other then BitHigh(prof, mine) else if mine then mixedHigh else prof.t0h
  }

  /**
    The high phase of one pair, both pins having risen at reading `k`: one
    wait when the bits agree, two waits measured from the same rise when
    they differ.
   */
  function DualHighPhase(a: bool, b: bool, prof: Profile, mixedHigh: nat, clock: seq<Reading>, k: nat)
    : (r: Option<DualStep>)
    requires k < |clock|
    ensures r.Some? ==> k < r.value.next <= |clock| && r.value.pulse.rise == clock[k]
    ensures r.Some? ==> HighTime(PinA(r.value.pulse)) >= DualHigh(prof, mixedHigh, a, b)
    ensures r.Some? ==> HighTime(PinB(r.value.pulse)) >= DualHigh(prof, mixedHigh, b, a)
    ensures r.Some? && a == b ==> r.value.pulse.fallA == r.value.pulse.fallB
  {
    if a == b then
      match Spin(clock, k + 1, clock[k], BitHigh(prof, a))
      case None => None
      case Some(m) => Some(DualStep(DualPulse(clock[k], clock[m], clock[m]), m + 1))
    else
      match Spin(clock, k + 1, clock[k], prof.t0h)
      case None => None
      case Some(m0) =>
        match Spin(clock, m0 + 1, clock[k], mixedHigh)
        case None => None
        case Some(m1) =>
          Some(DualStep(if a then DualPulse(clock[k], clock[m1], clock[m0])
                        else DualPulse(clock[k], clock[m0], clock[m1]), m1 + 1))
  }

  /**
    One pair of bits, `a` on pin A and `b` on pin B: wait for the period,
    rise both, then the high phase.
   */
  function DualSendBit(a: bool, b: bool, prof: Profile, mixedHigh: nat, clock: seq<Reading>,
                       from: nat, since: Reading)
    : (r: Option<DualStep>)
    ensures r.Some? ==> from < r.value.next <= |clock|
    ensures r.Some? ==> Elapsed(r.value.pulse.rise, since) >= prof.ttot
    ensures r.Some? ==> HighTime(PinA(r.value.pulse)) >= DualHigh(prof, mixedHigh, a, b)
    ensures r.Some? ==> HighTime(PinB(r.value.pulse)) >= DualHigh(prof, mixedHigh, b, a)
    ensures r.Some? && a == b ==> r.value.pulse.fallA == r.value.pulse.fallB
  {
    match Spin(clock, from, since, prof.ttot)
    case None => None
    case Some(k) => DualHighPhase(a, b, prof, mixedHigh, clock, k)
  }

  function DualThen(done: seq<DualPulse>, rest: Option<DualEmission>): Option<DualEmission>
  {
    match rest
    case None => None
    case Some(e) => Some(DualEmission(done + e.pulses, e.next))
  }

  /** The encoder's behaviour on two bit streams of equal length. */
  function EmitDual(bitsA: seq<bool>, bitsB: seq<bool>, prof: Profile, mixedHigh: nat,
                    clock: seq<Reading>, from: nat, since: Reading)
    : (r: Option<DualEmission>)
    requires |bitsA| == |bitsB|
    ensures r.Some? ==> |r.value.pulses| == |bitsA|
    decreases |bitsA|
  {
    if |bitsA| == 0 then Some(DualEmission([], from))
    else
      match DualSendBit(bitsA[0], bitsB[0], prof, mixedHigh, clock, from, since)
      case None => None
      case Some(s) =>
        DualThen([s.pulse], EmitDual(bitsA[1..], bitsB[1..], prof, mixedHigh, clock, s.next, s.pulse.rise))
  }

  /**
    A whole run: the encoder reads the counter once on entry (`start_time`)
    and measures the first period from that reading.
   */
  function DualRun(bitsA: seq<bool>, bitsB: seq<bool>, prof: Profile, mixedHigh: nat, clock: seq<Reading>)
    : Option<DualEmission>
    requires |bitsA| == |bitsB|
  {
    if |clock| == 0 then None else EmitDual(bitsA, bitsB, prof, mixedHigh, clock, 1, clock[0])
  }

  function DualPulses(e: Option<DualEmission>): Option<seq<DualPulse>>
  {
    match e
    case None => None
    case Some(x) => Some(x.pulses)
  }

  /** The timing rules of the pair: each pin's high floor, shared falls for equal bits, the period floor. */
  predicate DualWellTimed(ps: seq<DualPulse>, bitsA: seq<bool>, bitsB: seq<bool>, prof: Profile,
                          mixedHigh: nat, since: Reading)
  {
    && |ps| == |bitsA| == |bitsB|
    && (forall i :: 0 <= i < |ps| ==>
          && HighTime(PinA(ps[i])) >= DualHigh(prof, mixedHigh, bitsA[i], bitsB[i])
          && HighTime(PinB(ps[i])) >= DualHigh(prof, mixedHigh, bitsB[i], bitsA[i])
          && (bitsA[i] == bitsB[i] ==> ps[i].fallA == ps[i].fallB))
    && (forall i :: 0 <= i < |ps| ==> RiseGap(ChannelA(ps), since, i) >= prof.ttot)
  }

  lemma DualWellTimedCons(p: DualPulse, rest: seq<DualPulse>, bitsA: seq<bool>, bitsB: seq<bool>,
                          prof: Profile, mixedHigh: nat, since: Reading)
    requires |bitsA| == |bitsB| > 0
    requires HighTime(PinA(p)) >= DualHigh(prof, mixedHigh, bitsA[0], bitsB[0])
    requires HighTime(PinB(p)) >= DualHigh(prof, mixedHigh, bitsB[0], bitsA[0])
    requires bitsA[0] == bitsB[0] ==> p.fallA == p.fallB
    requires Elapsed(p.rise, since) >= prof.ttot
    requires DualWellTimed(rest, bitsA[1..], bitsB[1..], prof, mixedHigh, p.rise)
    ensures DualWellTimed([p] + rest, bitsA, bitsB, prof, mixedHigh, since)
  {
    var ps := [p] + rest;
    forall i | 0 < i < |ps|
      ensures HighTime(PinA(ps[i])) >= DualHigh(prof, mixedHigh, bitsA[i], bitsB[i])
      ensures HighTime(PinB(ps[i])) >= DualHigh(prof, mixedHigh, bitsB[i], bitsA[i])
      ensures bitsA[i] == bitsB[i] ==> ps[i].fallA == ps[i].fallB
      ensures RiseGap(ChannelA(ps), since, i) >= prof.ttot
    {
      assert ps[i] == rest[i - 1] && bitsA[i] == bitsA[1..][i - 1] && bitsB[i] == bitsB[1..][i - 1];
      assert RiseGap(ChannelA(ps), since, i) == RiseGap(ChannelA(rest), p.rise, i - 1);
    }
    assert RiseGap(ChannelA(ps), since, 0) == Elapsed(p.rise, since);
  }

  /** Every pair of trains the encoder completes obeys the pair's timing rules, whatever the counter does. */
  lemma {:induction false} EmitDualWellTimed(bitsA: seq<bool>, bitsB: seq<bool>, prof: Profile,
                                             mixedHigh: nat, clock: seq<Reading>, from: nat, since: Reading)
    requires |bitsA| == |bitsB|
    requires EmitDual(bitsA, bitsB, prof, mixedHigh, clock, from, since).Some?
    ensures DualWellTimed(EmitDual(bitsA, bitsB, prof, mixedHigh, clock, from, since).value.pulses,
                          bitsA, bitsB, prof, mixedHigh, since)
    decreases |bitsA|
  {
    if |bitsA| > 0 {
      var s := DualSendBit(bitsA[0], bitsB[0], prof, mixedHigh, clock, from, since).value;
      var rest := EmitDual(bitsA[1..], bitsB[1..], prof, mixedHigh, clock, s.next, s.pulse.rise);
      EmitDualWellTimed(bitsA[1..], bitsB[1..], prof, mixedHigh, clock, s.next, s.pulse.rise);
      DualWellTimedCons(s.pulse, rest.value.pulses, bitsA, bitsB, prof, mixedHigh, since);
    }
  }

  /**
    When the 1-pin of a disagreeing pair is held at least `t1h`, each pin on
    its own carries a train that obeys the single-channel timing rules for its
    own bits.
   */
  lemma ChannelsWellTimed(ps: seq<DualPulse>, bitsA: seq<bool>, bitsB: seq<bool>, prof: Profile,
                          mixedHigh: nat, since: Reading)
    requires prof.t1h <= mixedHigh
    requires DualWellTimed(ps, bitsA, bitsB, prof, mixedHigh, since)
    ensures WellTimed(ChannelA(ps), bitsA, prof, since)
    ensures WellTimed(ChannelB(ps), bitsB, prof, since)
  {
    forall i | 0 <= i < |ps|
      ensures RiseGap(ChannelB(ps), since, i) == RiseGap(ChannelA(ps), since, i)
    {
    }
  }

  /** Exact timing of the pair: every high phase on the cycle, every period exactly `ttot`. */
  predicate DualExactlyTimed(ps: seq<DualPulse>, bitsA: seq<bool>, bitsB: seq<bool>, prof: Profile,
                             mixedHigh: nat, since: Reading)
  {
    && |ps| == |bitsA| == |bitsB|
    && (forall i :: 0 <= i < |ps| ==>
          && HighTime(PinA(ps[i])) == DualHigh(prof, mixedHigh, bitsA[i], bitsB[i])
          && HighTime(PinB(ps[i])) == DualHigh(prof, mixedHigh, bitsB[i], bitsA[i]))
    && (forall i :: 0 <= i < |ps| ==> RiseGap(ChannelA(ps), since, i) == prof.ttot)
  }

  lemma DualExactlyTimedCons(p: DualPulse, rest: seq<DualPulse>, bitsA: seq<bool>, bitsB: seq<bool>,
                             prof: Profile, mixedHigh: nat, since: Reading)
    requires |bitsA| == |bitsB| > 0
    requires HighTime(PinA(p)) == DualHigh(prof, mixedHigh, bitsA[0], bitsB[0])
    requires HighTime(PinB(p)) == DualHigh(prof, mixedHigh, bitsB[0], bitsA[0])
    requires Elapsed(p.rise, since) == prof.ttot
    requires DualExactlyTimed(rest, bitsA[1..], bitsB[1..], prof, mixedHigh, p.rise)
    ensures DualExactlyTimed([p] + rest, bitsA, bitsB, prof, mixedHigh, since)
  {
    var ps := [p] + rest;
    forall i | 0 < i < |ps|
      ensures HighTime(PinA(ps[i])) == DualHigh(prof, mixedHigh, bitsA[i], bitsB[i])
      ensures HighTime(PinB(ps[i])) == DualHigh(prof, mixedHigh, bitsB[i], bitsA[i])
      ensures RiseGap(ChannelA(ps), since, i) == prof.ttot
    {
      assert ps[i] == rest[i - 1] && bitsA[i] == bitsA[1..][i - 1] && bitsB[i] == bitsB[1..][i - 1];
      assert RiseGap(ChannelA(ps), since, i) == RiseGap(ChannelA(rest), p.rise, i - 1);
    }
    assert RiseGap(ChannelA(ps), since, 0) == Elapsed(p.rise, since);
  }

  /** The conditions on the profile and `mixedHigh` under which the exactness results hold. */
  predicate Sane(prof: Profile, mixedHigh: nat)
  {
    prof.Ordered() && prof.t1h <= mixedHigh < prof.ttot && prof.ttot < Modulus - 1
  }

  /** The reading, counted from the rise, at which the later of the two pins falls. */
  function LastFall(prof: Profile, mixedHigh: nat, a: bool, b: bool): nat
  {
    if a == b then BitHigh(prof, a) else mixedHigh
  }

  /**
    The shape of a high phase on an ideal counter, the rise at reading `k`:
    pin A falls at reading `k + DualHigh(a, b)`, pin B at `k + DualHigh(b, a)`,
    and the phase completes exactly when the window holds the later fall.
   */
  lemma DualPairOnTickingClock(a: bool, b: bool, prof: Profile, mixedHigh: nat, clock: seq<Reading>, k: nat)
    requires Ticking(clock) && Sane(prof, mixedHigh) && k < |clock|
    ensures var last := LastFall(prof, mixedHigh, a, b);
      DualHighPhase(a, b, prof, mixedHigh, clock, k).Some? <==> k + last < |clock|
    ensures var last := LastFall(prof, mixedHigh, a, b);
      var hA := DualHigh(prof, mixedHigh, a, b);
      var hB := DualHigh(prof, mixedHigh, b, a);
      k + last < |clock| ==>
        && hA <= last && hB <= last
        && DualHighPhase(a, b, prof, mixedHigh, clock, k)
           == Some(DualStep(DualPulse(clock[k], clock[k + hA], clock[k + hB]), k + last + 1))
        && Elapsed(clock[k + hA], clock[k]) == hA
        && Elapsed(clock[k + hB], clock[k]) == hB
  {
    if a == b {
      PairAgreeOnTickingClock(a, prof, mixedHigh, clock, k);
    } else {
      PairDisagreeOnTickingClock(a, prof, mixedHigh, clock, k);
    }
  }

  /** Equal bits on an ideal counter: both pins fall on reading `k + t`, `t` the bit's high time. */
  lemma PairAgreeOnTickingClock(a: bool, prof: Profile, mixedHigh: nat, clock: seq<Reading>, k: nat)
    requires Ticking(clock) && Sane(prof, mixedHigh) && k < |clock|
    ensures var t := BitHigh(prof, a);
      && (DualHighPhase(a, a, prof, mixedHigh, clock, k).Some? <==> k + t < |clock|)
      && (k + t < |clock| ==>
            && DualHighPhase(a, a, prof, mixedHigh, clock, k)
               == Some(DualStep(DualPulse(clock[k], clock[k + t], clock[k + t]), k + t + 1))
            && Elapsed(clock[k + t], clock[k]) == t)
  {
    SpinFromRise(clock, k, k + 1, BitHigh(prof, a));
  }

  /**
    Different bits on an ideal counter: the 0-pin falls on reading `k + t0h`,
    the 1-pin on reading `k + mixedHigh`.
   */
  lemma PairDisagreeOnTickingClock(a: bool, prof: Profile, mixedHigh: nat, clock: seq<Reading>, k: nat)
    requires Ticking(clock) && Sane(prof, mixedHigh) && k < |clock|
    ensures var z := k + prof.t0h;
      var o := k + mixedHigh;
      && (DualHighPhase(a, !a, prof, mixedHigh, clock, k).Some? <==> o < |clock|)
      && (o < |clock| ==>
            && DualHighPhase(a, !a, prof, mixedHigh, clock, k)
               == Some(DualStep(if a then DualPulse(clock[k], clock[o], clock[z])
                                else DualPulse(clock[k], clock[z], clock[o]), o + 1))
            && Elapsed(clock[z], clock[k]) == prof.t0h
            && Elapsed(clock[o], clock[k]) == mixedHigh)
  {
    var z := k + prof.t0h;
    SpinFromRise(clock, k, k + 1, prof.t0h);
    if z < |clock| {
      assert Spin(clock, k + 1, clock[k], prof.t0h) == Some(z);
      SpinFromRise(clock, k, z + 1, mixedHigh);
    }
  }

  /**
    One pair on an ideal counter: every high phase lasts exactly its wait,
    the next reading is at most one period after the rise, and a period wait
    that had not expired ends exactly `ttot` cycles after `since`.
   */
  lemma DualSendBitOnTickingClock(a: bool, b: bool, prof: Profile, mixedHigh: nat, clock: seq<Reading>,
                                  from: nat, since: Reading)
    requires Ticking(clock) && Sane(prof, mixedHigh)
    requires DualSendBit(a, b, prof, mixedHigh, clock, from, since).Some?
    ensures var s := DualSendBit(a, b, prof, mixedHigh, clock, from, since).value;
      && HighTime(PinA(s.pulse)) == DualHigh(prof, mixedHigh, a, b)
      && HighTime(PinB(s.pulse)) == DualHigh(prof, mixedHigh, b, a)
      && (s.next < |clock| ==> Elapsed(clock[s.next], s.pulse.rise) <= prof.ttot)
      && (Elapsed(clock[from], since) <= prof.ttot ==> Elapsed(s.pulse.rise, since) == prof.ttot)
  {
    var k := Spin(clock, from, since, prof.ttot).value;
    assert DualSendBit(a, b, prof, mixedHigh, clock, from, since) == DualHighPhase(a, b, prof, mixedHigh, clock, k);
    var last := LastFall(prof, mixedHigh, a, b);
    DualPairOnTickingClock(a, b, prof, mixedHigh, clock, k);
    if k + last + 1 < |clock| {
      ElapsedReads(clock, k, last + 1);
    }
    if Elapsed(clock[from], since) < prof.ttot {
      SpinPending(clock, from, since, prof.ttot);
    }
  }

  /**
    On an ideal counter the pair is exactly timed, and every rising edge,
    the first included, comes exactly `ttot` cycles after the one before
    (or after the entry reading).
   */
  lemma {:induction false} EmitDualOnTickingClock(bitsA: seq<bool>, bitsB: seq<bool>, prof: Profile,
                                                  mixedHigh: nat, clock: seq<Reading>, from: nat, since: Reading)
    requires Ticking(clock) && Sane(prof, mixedHigh) && |bitsA| == |bitsB|
    requires from < |clock| && Elapsed(clock[from], since) <= prof.ttot
    requires EmitDual(bitsA, bitsB, prof, mixedHigh, clock, from, since).Some?
    ensures DualExactlyTimed(EmitDual(bitsA, bitsB, prof, mixedHigh, clock, from, since).value.pulses,
                             bitsA, bitsB, prof, mixedHigh, since)
    decreases |bitsA|
  {
    if |bitsA| > 0 {
      var s := DualSendBit(bitsA[0], bitsB[0], prof, mixedHigh, clock, from, since).value;
      DualSendBitOnTickingClock(bitsA[0], bitsB[0], prof, mixedHigh, clock, from, since);
      var rest := EmitDual(bitsA[1..], bitsB[1..], prof, mixedHigh, clock, s.next, s.pulse.rise);
      if |bitsA| > 1 {
        EmitDualOnTickingClock(bitsA[1..], bitsB[1..], prof, mixedHigh, clock, s.next, s.pulse.rise);
      }
      DualExactlyTimedCons(s.pulse, rest.value.pulses, bitsA, bitsB, prof, mixedHigh, since);
    }
  }

  /** One pair on an ideal counter fits in `Budget` readings. */
  lemma DualSendBitOnLongTickingClock(a: bool, b: bool, prof: Profile, mixedHigh: nat, clock: seq<Reading>,
                                      from: nat, since: Reading)
    requires Ticking(clock) && Sane(prof, mixedHigh)
    requires from + Budget(prof) <= |clock|
    ensures DualSendBit(a, b, prof, mixedHigh, clock, from, since).Some?
    ensures DualSendBit(a, b, prof, mixedHigh, clock, from, since).value.next <= from + Budget(prof)
  {
    SpinWithin(clock, from, since, prof.ttot);
    var k := Spin(clock, from, since, prof.ttot).value;
    DualPairOnTickingClock(a, b, prof, mixedHigh, clock, k);
  }

  /** An ideal counter with `Budget` readings per pair never runs out before the trains end. */
  lemma {:induction false} EmitDualOnLongTickingClock(bitsA: seq<bool>, bitsB: seq<bool>, prof: Profile,
                                                      mixedHigh: nat, clock: seq<Reading>, from: nat, since: Reading)
    requires Ticking(clock) && Sane(prof, mixedHigh) && |bitsA| == |bitsB|
    requires from + ReadingsFor(|bitsA|, Budget(prof)) <= |clock|
    ensures EmitDual(bitsA, bitsB, prof, mixedHigh, clock, from, since).Some?
    decreases |bitsA|
  {
    if |bitsA| > 0 {
      DualSendBitOnLongTickingClock(bitsA[0], bitsB[0], prof, mixedHigh, clock, from, since);
      var s := DualSendBit(bitsA[0], bitsB[0], prof, mixedHigh, clock, from, since).value;
      assert |bitsA[1..]| == |bitsA| - 1;
      EmitDualOnLongTickingClock(bitsA[1..], bitsB[1..], prof, mixedHigh, clock, s.next, s.pulse.rise);
    }
  }

  /**
    With the 1-pin of a disagreeing pair held exactly `t1h`, an exactly
    timed pair gives each pin exactly the single-channel high time of its own bit.
   */
  lemma ExactChannels(ps: seq<DualPulse>, bitsA: seq<bool>, bitsB: seq<bool>, prof: Profile, since: Reading)
    requires DualExactlyTimed(ps, bitsA, bitsB, prof, prof.t1h, since)
    ensures ExactlyTimed(ChannelA(ps), bitsA, prof, since)
    ensures ExactlyTimed(ChannelB(ps), bitsB, prof, since)
  {
    forall i | 0 <= i < |ps|
      ensures RiseGap(ChannelB(ps), since, i) == RiseGap(ChannelA(ps), since, i)
    {
    }
  }

  /** A receiver that reads pulses of at least `t1h` as 1 recovers the bits of an exactly timed train. */
  lemma DecodeExact(pulses: seq<Pulse>, bits: seq<bool>, prof: Profile, since: Reading)
    requires prof.Ordered() && ExactlyTimed(pulses, bits, prof, since)
    ensures Decode(pulses, prof.t1h) == bits
  {
  }

  /**
    End to end on an ideal counter with enough readings: both trains go out
    completely, every period (the first one, measured from the entry read,
    included) lasts exactly `ttot`, and each high phase lasts exactly its wait.
   */
  lemma DualDelivers(bytesA: seq<Byte>, bytesB: seq<Byte>, prof: Profile, mixedHigh: nat, clock: seq<Reading>)
    requires |bytesA| == |bytesB|
    requires Ticking(clock) && Sane(prof, mixedHigh)
    requires 1 + 8 * |bytesA| * Budget(prof) <= |clock|
    ensures var e := DualRun(BitStream(bytesA), BitStream(bytesB), prof, mixedHigh, clock);
      && e.Some?
      && DualExactlyTimed(e.value.pulses, BitStream(bytesA), BitStream(bytesB), prof, mixedHigh, clock[0])
  {
    var bitsA := BitStream(bytesA);
    var bitsB := BitStream(bytesB);
    DualWindow(bytesA, prof, clock);
    assert DualRun(bitsA, bitsB, prof, mixedHigh, clock) == EmitDual(bitsA, bitsB, prof, mixedHigh, clock, 1, clock[0]);
    EmitDualOnLongTickingClock(bitsA, bitsB, prof, mixedHigh, clock, 1, clock[0]);
    if |bytesA| > 0 {
      FirstPeriodPending(clock, prof, mixedHigh);
      EmitDualOnTickingClock(bitsA, bitsB, prof, mixedHigh, clock, 1, clock[0]);
    }
  }

  /**
    The first period is measured from the entry read, one cycle before the first
    wait starts: on an ideal counter the first rise comes exactly `ttot` readings
    after entry, or never when the readings end first.
   */
  lemma FirstPeriodPending(clock: seq<Reading>, prof: Profile, mixedHigh: nat)
    requires Ticking(clock) && Sane(prof, mixedHigh) && 1 < |clock|
    ensures Elapsed(clock[1], clock[0]) <= prof.ttot
    ensures prof.ttot < |clock| ==>
      Spin(clock, 1, clock[0], prof.ttot) == Some(prof.ttot) && Elapsed(clock[prof.ttot], clock[0]) == prof.ttot
    ensures prof.ttot >= |clock| ==> Spin(clock, 1, clock[0], prof.ttot) == None
  {
    ElapsedReads(clock, 0, 1);
    SpinPending(clock, 1, clock[0], prof.ttot);
  }

  /** The readings the dual encoder may need: the entry read, then `Budget` per pair of bits. */
  lemma DualWindow(bytesA: seq<Byte>, prof: Profile, clock: seq<Reading>)
    requires 1 + 8 * |bytesA| * Budget(prof) <= |clock|
    ensures 1 + ReadingsFor(|BitStream(bytesA)|, Budget(prof)) <= |clock|
    ensures |bytesA| > 0 ==> 1 < |clock|
  {
    ReadingsForIsProduct(8 * |bytesA|, Budget(prof));
    if |bytesA| > 0 {
      assert ReadingsFor(8 * |bytesA|, Budget(prof)) >= Budget(prof) >= 2;
    }
  }

  /**
    With the 1-pin of a disagreeing pair held `t1h`, a receiver on each pin
    reassembles exactly that pin's bytes.
   */
  lemma DualDecodes(bytesA: seq<Byte>, bytesB: seq<Byte>, prof: Profile, clock: seq<Reading>)
    requires |bytesA| == |bytesB|
    requires Ticking(clock) && Sane(prof, prof.t1h)
    requires 1 + 8 * |bytesA| * Budget(prof) <= |clock|
    ensures var e := DualRun(BitStream(bytesA), BitStream(bytesB), prof, prof.t1h, clock);
      && e.Some?
      && Pack(Decode(ChannelA(e.value.pulses), prof.t1h)) == bytesA
      && Pack(Decode(ChannelB(e.value.pulses), prof.t1h)) == bytesB
  {
    DualDelivers(bytesA, bytesB, prof, prof.t1h, clock);
    var e := DualRun(BitStream(bytesA), BitStream(bytesB), prof, prof.t1h, clock);
    ExactChannels(e.value.pulses, BitStream(bytesA), BitStream(bytesB), prof, clock[0]);
    DecodeExact(ChannelA(e.value.pulses), BitStream(bytesA), prof, clock[0]);
    DecodeExact(ChannelB(e.value.pulses), BitStream(bytesB), prof, clock[0]);
    PackBitStream(bytesA);
    PackBitStream(bytesB);
  }

  // The encoder loop.

  /** The loop's invariant: what is still to come, after `done`, is `EmitDual` on the rest. */
  ghost predicate DualResumes(bitsA: seq<bool>, bitsB: seq<bool>, prof: Profile, mixedHigh: nat,
                              clock: seq<Reading>, done: seq<DualPulse>, pos: nat, since: Reading)
    requires |bitsA| == |bitsB| && |done| <= |bitsA|
  {
    DualRun(bitsA, bitsB, prof, mixedHigh, clock)
    == DualThen(done, EmitDual(bitsA[|done|..], bitsB[|done|..], prof, mixedHigh, clock, pos, since))
  }

  lemma DualResumesAtStart(bitsA: seq<bool>, bitsB: seq<bool>, prof: Profile, mixedHigh: nat,
                           clock: seq<Reading>)
    requires |bitsA| == |bitsB| && |clock| > 0
    ensures DualResumes(bitsA, bitsB, prof, mixedHigh, clock, [], 1, clock[0])
  {
    assert bitsA[0..] == bitsA && bitsB[0..] == bitsB;
    var e := EmitDual(bitsA, bitsB, prof, mixedHigh, clock, 1, clock[0]);
    if e.Some? {
      assert [] + e.value.pulses == e.value.pulses;
    }
  }

  /** `EmitDual` on a non-empty suffix, unfolded by one pair. */
  lemma EmitDualSuffix(bitsA: seq<bool>, bitsB: seq<bool>, i: nat, prof: Profile, mixedHigh: nat,
                       clock: seq<Reading>, from: nat, since: Reading)
    requires |bitsA| == |bitsB| && i < |bitsA|
    ensures var r := DualSendBit(bitsA[i], bitsB[i], prof, mixedHigh, clock, from, since);
      && (r.None? ==> EmitDual(bitsA[i..], bitsB[i..], prof, mixedHigh, clock, from, since).None?)
      && (r.Some? ==>
            EmitDual(bitsA[i..], bitsB[i..], prof, mixedHigh, clock, from, since)
            == DualThen([r.value.pulse],
                        EmitDual(bitsA[i + 1..], bitsB[i + 1..], prof, mixedHigh, clock, r.value.next, r.value.pulse.rise)))
  {
    assert bitsA[i..][0] == bitsA[i] && bitsB[i..][0] == bitsB[i];
    assert bitsA[i..][1..] == bitsA[i + 1..] && bitsB[i..][1..] == bitsB[i + 1..];
  }

  lemma DualThenThen(done: seq<DualPulse>, p: DualPulse, rest: Option<DualEmission>)
    ensures DualThen(done, DualThen([p], rest)) == DualThen(done + [p], rest)
  {
    if rest.Some? {
      assert done + ([p] + rest.value.pulses) == (done + [p]) + rest.value.pulses;
    }
  }

  lemma DualResumesAdvance(bitsA: seq<bool>, bitsB: seq<bool>, prof: Profile, mixedHigh: nat,
                           clock: seq<Reading>, done: seq<DualPulse>, pos: nat, since: Reading, s: DualStep)
    requires |bitsA| == |bitsB| && |done| < |bitsA|
    requires DualResumes(bitsA, bitsB, prof, mixedHigh, clock, done, pos, since)
    requires DualSendBit(bitsA[|done|], bitsB[|done|], prof, mixedHigh, clock, pos, since) == Some(s)
    ensures DualResumes(bitsA, bitsB, prof, mixedHigh, clock, done + [s.pulse], s.next, s.pulse.rise)
  {
    var i := |done|;
    EmitDualSuffix(bitsA, bitsB, i, prof, mixedHigh, clock, pos, since);
    DualThenThen(done, s.pulse, EmitDual(bitsA[i + 1..], bitsB[i + 1..], prof, mixedHigh, clock, s.next, s.pulse.rise));
  }

  lemma DualResumesStall(bitsA: seq<bool>, bitsB: seq<bool>, prof: Profile, mixedHigh: nat,
                         clock: seq<Reading>, done: seq<DualPulse>, pos: nat, since: Reading)
    requires |bitsA| == |bitsB| && |done| < |bitsA|
    requires DualResumes(bitsA, bitsB, prof, mixedHigh, clock, done, pos, since)
    requires DualSendBit(bitsA[|done|], bitsB[|done|], prof, mixedHigh, clock, pos, since).None?
    ensures DualRun(bitsA, bitsB, prof, mixedHigh, clock).None?
  {
    EmitDualSuffix(bitsA, bitsB, |done|, prof, mixedHigh, clock, pos, since);
  }

  lemma DualResumesAtEnd(bitsA: seq<bool>, bitsB: seq<bool>, prof: Profile, mixedHigh: nat,
                         clock: seq<Reading>, done: seq<DualPulse>, pos: nat, since: Reading)
    requires |bitsA| == |bitsB| == |done|
    requires DualResumes(bitsA, bitsB, prof, mixedHigh, clock, done, pos, since)
    ensures DualRun(bitsA, bitsB, prof, mixedHigh, clock) == Some(DualEmission(done, pos))
  {
    assert bitsA[|done|..] == [] && bitsB[|done|..] == [];
    assert done + [] == done;
  }

  /** The high phase as the firmware writes it: four branches on the two bits. */
  method HighPhase(a: bool, b: bool, prof: Profile, mixedHigh: nat, clock: seq<Reading>, k: nat)
    returns (r: Option<DualStep>)
    requires k < |clock|
    ensures r == DualHighPhase(a, b, prof, mixedHigh, clock, k)
  {
    var rise := clock[k];
    var first := if a == b then (if a then prof.t1h else prof.t0h) else prof.t0h;
    var m0 := WaitUntil(clock, k + 1, rise, first);
    if m0.None? {
      return None;
    }
    if a && b {
      r := Some(DualStep(DualPulse(rise, clock[m0.value], clock[m0.value]), m0.value + 1));
    } else if !a && !b {
      r := Some(DualStep(DualPulse(rise, clock[m0.value], clock[m0.value]), m0.value + 1));
    } else {
      var m1 := WaitUntil(clock, m0.value + 1, rise, mixedHigh);
      if m1.None? {
        return None;
      }
      if a {
        r := Some(DualStep(DualPulse(rise, clock[m1.value], clock[m0.value]), m1.value + 1));
      } else {
        r := Some(DualStep(DualPulse(rise, clock[m0.value], clock[m1.value]), m1.value + 1));
      }
    }
  }

  /** The counter reads of one pair of bits: the period wait, then the high phase. */
  method DualSendOne(a: bool, b: bool, prof: Profile, mixedHigh: nat, clock: seq<Reading>,
                     from: nat, since: Reading)
    returns (r: Option<DualStep>)
    ensures r == DualSendBit(a, b, prof, mixedHigh, clock, from, since)
  {
    var k := WaitUntil(clock, from, since, prof.ttot);
    if k.None? {
      return None;
    }
    r := HighPhase(a, b, prof, mixedHigh, clock, k.value);
  }

  /** The dual encoder's progress: the pairs so far, the next counter reading, the last rising edge. */
  datatype DualProgress = DualProgress(trace: seq<DualPulse>, pos: nat, startTime: Reading)

  method DualSendNext(a: bool, b: bool, prof: Profile, mixedHigh: nat, clock: seq<Reading>,
                      st: DualProgress, ghost bitsA: seq<bool>, ghost bitsB: seq<bool>)
    returns (r: Option<DualProgress>)
    requires |bitsA| == |bitsB| && |st.trace| < |bitsA|
    requires bitsA[|st.trace|] == a && bitsB[|st.trace|] == b
    requires DualResumes(bitsA, bitsB, prof, mixedHigh, clock, st.trace, st.pos, st.startTime)
    ensures r.None? ==> DualRun(bitsA, bitsB, prof, mixedHigh, clock).None?
    ensures r.Some? ==> |r.value.trace| == |st.trace| + 1
    ensures r.Some? ==> DualResumes(bitsA, bitsB, prof, mixedHigh, clock, r.value.trace, r.value.pos, r.value.startTime)
  {
    var s := DualSendOne(a, b, prof, mixedHigh, clock, st.pos, st.startTime);
    if s.None? {
      DualResumesStall(bitsA, bitsB, prof, mixedHigh, clock, st.trace, st.pos, st.startTime);
      return None;
    }
    DualResumesAdvance(bitsA, bitsB, prof, mixedHigh, clock, st.trace, st.pos, st.startTime, s.value);
    r := Some(DualProgress(st.trace + [s.value.pulse], s.value.next, s.value.pulse.rise));
  }

  /** One byte on each pin: the shared mask walks from `0x80` down to zero. */
  method ShiftOutPair(pixA: Byte, pixB: Byte, prof: Profile, mixedHigh: nat, clock: seq<Reading>,
                      st: DualProgress, ghost bitsA: seq<bool>, ghost bitsB: seq<bool>)
    returns (r: Option<DualProgress>)
    requires |bitsA| == |bitsB| && |st.trace| + 8 <= |bitsA|
    requires CarriesByte(bitsA, |st.trace|, pixA) && CarriesByte(bitsB, |st.trace|, pixB)
    requires DualResumes(bitsA, bitsB, prof, mixedHigh, clock, st.trace, st.pos, st.startTime)
    ensures r.None? ==> DualRun(bitsA, bitsB, prof, mixedHigh, clock).None?
    ensures r.Some? ==> |r.value.trace| == |st.trace| + 8
    ensures r.Some? ==> DualResumes(bitsA, bitsB, prof, mixedHigh, clock, r.value.trace, r.value.pos, r.value.startTime)
  {
    ghost var j: nat := 0;
    var mask: Byte := 0x80;
    var cur := st;
    while mask != 0
      invariant j <= 8 && mask == MaskAt(j) && (mask != 0 <==> j < 8)
      invariant |cur.trace| == |st.trace| + j
      invariant DualResumes(bitsA, bitsB, prof, mixedHigh, clock, cur.trace, cur.pos, cur.startTime)
      decreases 8 - j
    {
      var a := TestBit(pixA, mask, j);
      var b := TestBit(pixB, mask, j);
      assert bitsA[|cur.trace|] == a && bitsB[|cur.trace|] == b;
      var next := DualSendNext(a, b, prof, mixedHigh, clock, cur, bitsA, bitsB);
      if next.None? {
        return None;
      }
      cur := next.value;
      mask := ShiftMask(mask, j);
      j := j + 1;
    }
    return Some(cur);
  }

  /**
    The bytes each pin sends from a NUL-terminated buffer of `numBytes`
    bytes: pin A walks from the start, pin B from the middle (`numBytes / 2`),
    and both stop when pin A reaches the middle. The first byte of each is
    read before that test, so there is always at least one.
   */
  function HalfWidth(numBytes: nat): (w: nat)
    ensures w >= 1 && (numBytes >= 2 ==> w == numBytes / 2)
  {
    Max(1, numBytes / 2)
  }

  function FrameA(pixels: seq<Byte>, numBytes: nat): (r: seq<Byte>)
    requires numBytes < |pixels|
    ensures |r| == HalfWidth(numBytes)
  {
    pixels[..HalfWidth(numBytes)]
  }

  function FrameB(pixels: seq<Byte>, numBytes: nat): (r: seq<Byte>)
    requires numBytes < |pixels|
    ensures |r| == HalfWidth(numBytes)
  {
    pixels[numBytes / 2..numBytes / 2 + HalfWidth(numBytes)]
  }

  lemma FrameBytes(pixels: seq<Byte>, numBytes: nat, p: nat)
    requires numBytes < |pixels| && p < HalfWidth(numBytes)
    ensures numBytes / 2 + p < |pixels|
    ensures FrameA(pixels, numBytes)[p] == pixels[p]
    ensures FrameB(pixels, numBytes)[p] == pixels[numBytes / 2 + p]
  {
  }

  /** Byte `p` of each pin's frame: pin A's from `pixels[p1]`, pin B's from `pixels[p2]`. */
  method ShiftOutFramePair(pixels: seq<Byte>, numBytes: nat, p1: nat, p2: nat, prof: Profile, mixedHigh: nat,
                           clock: seq<Reading>, st: DualProgress)
    returns (r: Option<DualProgress>)
    requires numBytes < |pixels| && p1 < HalfWidth(numBytes) && p2 == numBytes / 2 + p1
    requires |st.trace| == 8 * p1
    requires var bitsA := BitStream(FrameA(pixels, numBytes));
      var bitsB := BitStream(FrameB(pixels, numBytes));
      DualResumes(bitsA, bitsB, prof, mixedHigh, clock, st.trace, st.pos, st.startTime)
    ensures var bitsA := BitStream(FrameA(pixels, numBytes));
      var bitsB := BitStream(FrameB(pixels, numBytes));
      && (r.None? ==> DualRun(bitsA, bitsB, prof, mixedHigh, clock).None?)
      && (r.Some? ==> |r.value.trace| == |st.trace| + 8)
      && (r.Some? ==> DualResumes(bitsA, bitsB, prof, mixedHigh, clock, r.value.trace, r.value.pos, r.value.startTime))
  {
    ghost var bytesA := FrameA(pixels, numBytes);
    ghost var bytesB := FrameB(pixels, numBytes);
    StreamByte(bytesA, p1, |st.trace|);
    StreamByte(bytesB, p1, |st.trace|);
    FrameBytes(pixels, numBytes, p1);
    r := ShiftOutPair(pixels[p1], pixels[p2], prof, mixedHigh, clock, st, BitStream(bytesA), BitStream(bytesB));
  }

  /**
    `ws2812_writedual(pin_a, pin_b, pixels, num_bytes)` with the 1-pin of a
    disagreeing pair held `mixedHigh` cycles. `pixels` holds at least the
    terminating NUL after the `numBytes` bytes.
   */
  method EncodeDual(pixels: seq<Byte>, numBytes: nat, prof: Profile, mixedHigh: nat, clock: seq<Reading>)
    returns (r: Option<seq<DualPulse>>)
    requires numBytes < |pixels|
    ensures r == DualPulses(DualRun(BitStream(FrameA(pixels, numBytes)), BitStream(FrameB(pixels, numBytes)),
                                    prof, mixedHigh, clock))
  {
    var half := numBytes / 2;
    ghost var w := HalfWidth(numBytes);
    ghost var bytesA := FrameA(pixels, numBytes);
    ghost var bytesB := FrameB(pixels, numBytes);
    ghost var bitsA := BitStream(bytesA);
    ghost var bitsB := BitStream(bytesB);
    if |clock| == 0 {
      return None;
    }
    var p1 := 0;
    var p2 := half;
    var st := DualProgress([], 1, clock[0]);
    DualResumesAtStart(bitsA, bitsB, prof, mixedHigh, clock);
    while true
      invariant p1 < w && p2 == half + p1 && |st.trace| == 8 * p1
      invariant DualResumes(bitsA, bitsB, prof, mixedHigh, clock, st.trace, st.pos, st.startTime)
      decreases w - p1
    {
      var next := ShiftOutFramePair(pixels, numBytes, p1, p2, prof, mixedHigh, clock, st);
      if next.None? {
        return None;
      }
      st := next.value;
      p1 := p1 + 1;
      p2 := p2 + 1;
      if p1 >= half {
        break;
      }
    }
    DualResumesAtEnd(bitsA, bitsB, prof, mixedHigh, clock, st.trace, st.pos, st.startTime);
    r := Some(st.trace);
  }
}

=== FILE: lua_args.dfy ===
/**
  The view the C modules take of their Lua arguments: whether `lua_isnumber`
  accepts an argument, and its integer value when it does.
 */
module LuaArgs {

  /** A Lua argument; a missing argument is not a number. */
  datatype Arg = Number(value: int) | NotNumber

  /** Argument `i` (counting from 0), or `NotNumber` past the end. */
  function ArgAt(args: seq<Arg>, i: nat): Arg
  {
    if i < |args| then args[i] else NotNumber
  }

  /** A Lua integer stored into a `u32`/`uint32_t`: reduced modulo 2^32. */
  function U32(x: int): (r: nat)
    ensures r < 0x1_0000_0000
    ensures (x - r) % 0x1_0000_0000 == 0
    ensures 0 <= x < 0x1_0000_0000 ==> r == x
  {
    x % 0x1_0000_0000
  }

  /** A Lua integer stored into a `uint8_t`: reduced modulo 256. */
  function U8(x: int): (r: nat)
    ensures r < 0x100
    ensures (x - r) % 0x100 == 0
    ensures 0 <= x < 0x100 ==> r == x
  {
    x % 0x100
  }
}

=== FILE: pulse_train.dfy ===
/**
  The single-channel WS281x encoder: one pin, one pulse per bit. Every bit
  waits until `ttot` cycles have passed since the previous rising edge, drives
  the pin high, waits `t1h` (a 1) or `t0h` (a 0) cycles and drives it low.
  A pulse is recorded as the two counter readings after which the firmware
  writes the set register and the clear register.
 */
module PulseTrain {
  import opened Wrappers
  import opened CycleClock
  import opened Bits
  import opened Timing

  datatype Pulse = Pulse(rise: Reading, fall: Reading)

  /** One transmitted bit and the index of the next counter reading. */
  datatype Step = Step(pulse: Pulse, next: nat)

  /** What one run of the encoder produced and where it stopped reading the counter. */
  datatype Emission = Emission(pulses: seq<Pulse>, next: nat)

  /** Cycles a pulse stays high. */
  function HighTime(p: Pulse): Reading
  {
    Elapsed(p.fall, p.rise)
  }

  /** The high time the encoder waits for: `t1h` for a 1 bit, `t0h` for a 0 bit. */
  function BitHigh(prof: Profile, bit: bool): nat
  {
    if bit then prof.t1h else prof.t0h
  }

  /** Cycles between rising edge `i` and the one before it (or the start reference `since`). */
  function RiseGap(pulses: seq<Pulse>, since: Reading, i: nat): Reading
    requires i < |pulses|
  {
    Elapsed(pulses[i].rise, if i == 0 then since else pulses[i - 1].rise)
  }

  /** The protocol's timing rules for a pulse train carrying `bits`. */
  predicate WellTimed(pulses: seq<Pulse>, bits: seq<bool>, prof: Profile, since: Reading)
  {
    && |pulses| == |bits|
    && (forall i :: 0 <= i < |pulses| ==> HighTime(pulses[i]) >= BitHigh(prof, bits[i]))
    && (forall i :: 0 <= i < |pulses| ==> RiseGap(pulses, since, i) >= prof.ttot)
  }

  /** How a receiver reads the train: a pulse at least `threshold` cycles long is a 1. */
  function Decode(pulses: seq<Pulse>, threshold: nat): (bits: seq<bool>)
    ensures |bits| == |pulses|
    ensures forall i :: 0 <= i < |pulses| ==> (bits[i] <==> HighTime(pulses[i]) >= threshold)
  {
    if |pulses| == 0 then []
    else [HighTime(pulses[0]) >= threshold] + Decode(pulses[1..], threshold)
  }

  /**
    One bit: wait for the period to expire since `since`, rise, wait the bit's
    high time since the rise, fall.
   */
  function SendBit(bit: bool, prof: Profile, clock: seq<Reading>, from: nat, since: Reading)
    : (r: Option<Step>)
    ensures r.Some? ==> from < r.value.next <= |clock|
    ensures r.Some? ==> Elapsed(r.value.pulse.rise, since) >= prof.ttot
    ensures r.Some? ==> HighTime(r.value.pulse) >= BitHigh(prof, bit)
  {
    match Spin(clock, from, since, prof.ttot)
    case None => None
    case Some(k) =>
      match Spin(clock, k + 1, clock[k], BitHigh(prof, bit))
      case None => None
      case Some(m) => Some(Step(Pulse(clock[k], clock[m]), m + 1))
  }

  /** Prefix `done` to the pulses of an emission, if there is one. */
  function Then(done: seq<Pulse>, rest: Option<Emission>): Option<Emission>
  {
    match rest
    case None => None
    case Some(e) => Some(Emission(done + e.pulses, e.next))
  }

  /**
    The encoder's behaviour on a bit stream, starting at reading index `from`
    with `since` as the previous rising edge. `None`: the counter window ended
    inside a wait.
   */
  function Emit(bits: seq<bool>, prof: Profile, clock: seq<Reading>, from: nat, since: Reading)
    : (r: Option<Emission>)
    ensures r.Some? ==> |r.value.pulses| == |bits|
    ensures r.Some? && |bits| > 0 ==> from < r.value.next <= |clock|
    decreases |bits|
  {
    if |bits| == 0 then Some(Emission([], from))
    else
      match SendBit(bits[0], prof, clock, from, since)
      case None => None
      case Some(s) => Then([s.pulse], Emit(bits[1..], prof, clock, s.next, s.pulse.rise))
  }

  function Pulses(e: Option<Emission>): Option<seq<Pulse>>
  {
    match e
    case None => None
    case Some(x) => Some(x.pulses)
  }

  lemma ThenNothing(rest: Option<Emission>)
    ensures Then([], rest) == rest
  {
    if rest.Some? {
      assert [] + rest.value.pulses == rest.value.pulses;
    }
  }

  lemma ThenThen(done: seq<Pulse>, p: Pulse, rest: Option<Emission>)
    ensures Then(done, Then([p], rest)) == Then(done + [p], rest)
  {
    if rest.Some? {
      assert done + ([p] + rest.value.pulses) == (done + [p]) + rest.value.pulses;
    }
  }

  /** `Emit` on a non-empty suffix, unfolded by one bit. */
  lemma EmitSuffix(bits: seq<bool>, i: nat, prof: Profile, clock: seq<Reading>, from: nat, since: Reading)
    requires i < |bits|
    ensures SendBit(bits[i], prof, clock, from, since).None? ==> Emit(bits[i..], prof, clock, from, since).None?
    ensures SendBit(bits[i], prof, clock, from, since).Some? ==>
      var s := SendBit(bits[i], prof, clock, from, since).value;
      Emit(bits[i..], prof, clock, from, since)
      == Then([s.pulse], Emit(bits[i + 1..], prof, clock, s.next, s.pulse.rise))
  {
    assert bits[i..][0] == bits[i];
    assert bits[i..][1..] == bits[i + 1..];
  }

  /** Timing rules are kept when a conforming pulse is put in front of a conforming train. */
  lemma WellTimedCons(p: Pulse, rest: seq<Pulse>, bits: seq<bool>, prof: Profile, since: Reading)
    requires |bits| > 0
    requires HighTime(p) >= BitHigh(prof, bits[0]) && Elapsed(p.rise, since) >= prof.ttot
    requires WellTimed(rest, bits[1..], prof, p.rise)
    ensures WellTimed([p] + rest, bits, prof, since)
  {
    var ps := [p] + rest;
    forall i | 0 < i < |ps|
      ensures HighTime(ps[i]) >= BitHigh(prof, bits[i])
      ensures RiseGap(ps, since, i) >= prof.ttot
    {
      assert ps[i] == rest[i - 1] && bits[i] == bits[1..][i - 1];
      assert RiseGap(ps, since, i) == RiseGap(rest, p.rise, i - 1);
    }
    assert RiseGap(ps, since, 0) == Elapsed(p.rise, since);
  }

  /** Every train the encoder completes obeys the timing rules, whatever the counter does. */
  lemma {:induction false} EmitWellTimed(bits: seq<bool>, prof: Profile, clock: seq<Reading>,
                                         from: nat, since: Reading)
    requires Emit(bits, prof, clock, from, since).Some?
    ensures WellTimed(Emit(bits, prof, clock, from, since).value.pulses, bits, prof, since)
    decreases |bits|
  {
    if |bits| > 0 {
      var s := SendBit(bits[0], prof, clock, from, since).value;
      var rest := Emit(bits[1..], prof, clock, s.next, s.pulse.rise);
      EmitWellTimed(bits[1..], prof, clock, s.next, s.pulse.rise);
      WellTimedCons(s.pulse, rest.value.pulses, bits, prof, since);
    }
  }

  /** The per-bit reading budget that an ideal counter needs for one bit. */
  function Budget(prof: Profile): nat
  {
    2 * prof.ttot + 2
  }

  /** Exact timing: every high phase and every period after the first is hit on the cycle. */
  predicate ExactlyTimed(pulses: seq<Pulse>, bits: seq<bool>, prof: Profile, since: Reading)
  {
    && |pulses| == |bits|
    && (forall i :: 0 <= i < |pulses| ==> HighTime(pulses[i]) == BitHigh(prof, bits[i]))
    && (forall i :: 0 < i < |pulses| ==> RiseGap(pulses, since, i) == prof.ttot)
  }

  lemma ExactlyTimedCons(p: Pulse, rest: seq<Pulse>, bits: seq<bool>, prof: Profile, since: Reading)
    requires |bits| > 0 && HighTime(p) == BitHigh(prof, bits[0])
    requires ExactlyTimed(rest, bits[1..], prof, p.rise)
    requires |rest| > 0 ==> RiseGap(rest, p.rise, 0) == prof.ttot
    ensures ExactlyTimed([p] + rest, bits, prof, since)
  {
    var ps := [p] + rest;
    forall i | 0 < i < |ps|
      ensures HighTime(ps[i]) == BitHigh(prof, bits[i])
      ensures RiseGap(ps, since, i) == prof.ttot
    {
      assert ps[i] == rest[i - 1] && bits[i] == bits[1..][i - 1];
      assert RiseGap(ps, since, i) == RiseGap(rest, p.rise, i - 1);
    }
  }

  /**
    One bit on an ideal counter: the high wait ends exactly `t` cycles after
    the rising edge, the next reading is at most one period after the rise,
    and a period wait that had not expired ends exactly `ttot` cycles after
    `since`.
   */
  lemma SendBitOnTickingClock(bit: bool, prof: Profile, clock: seq<Reading>, from: nat, since: Reading)
    requires Ticking(clock) && prof.Ordered() && prof.ttot < Modulus - 1
    requires SendBit(bit, prof, clock, from, since).Some?
    ensures var s := SendBit(bit, prof, clock, from, since).value;
      && HighTime(s.pulse) == BitHigh(prof, bit)
      && (s.next < |clock| ==> Elapsed(clock[s.next], s.pulse.rise) <= prof.ttot)
      && (Elapsed(clock[from], since) <= prof.ttot ==> Elapsed(s.pulse.rise, since) == prof.ttot)
  {
    var k := Spin(clock, from, since, prof.ttot).value;
    var t := BitHigh(prof, bit);
    var m := Spin(clock, k + 1, clock[k], t).value;
    assert SendBit(bit, prof, clock, from, since).value == Step(Pulse(clock[k], clock[m]), m + 1);
    HighOnTickingClock(clock, k, t, m);
    if Elapsed(clock[from], since) < prof.ttot {
      SpinPending(clock, from, since, prof.ttot);
    }
  }

  /** The high wait on an ideal counter ends exactly `t` reads after the rising edge. */
  lemma HighOnTickingClock(clock: seq<Reading>, k: nat, t: nat, m: nat)
    requires Ticking(clock) && 1 <= t < Modulus - 1 && k < |clock|
    requires Spin(clock, k + 1, clock[k], t) == Some(m)
    ensures Elapsed(clock[m], clock[k]) == t
    ensures m + 1 < |clock| ==> Elapsed(clock[m + 1], clock[k]) == t + 1
  {
    SpinFromEdge(clock, k, t);
    if m + 1 < |clock| {
      ElapsedAhead(clock, m, m + 1, clock[k]);
    }
  }

  /**
    On an ideal counter the encoder never overshoots: each high phase lasts
    exactly its bit's high time, and every rising edge after the first comes
    exactly `ttot` cycles after the previous one (so does the first, when the
    wait for it had not already expired on entry).
   */
  lemma {:induction false} EmitOnTickingClock(bits: seq<bool>, prof: Profile, clock: seq<Reading>,
                                              from: nat, since: Reading)
    requires Ticking(clock) && prof.Ordered() && prof.ttot < Modulus - 1
    requires Emit(bits, prof, clock, from, since).Some?
    ensures ExactlyTimed(Emit(bits, prof, clock, from, since).value.pulses, bits, prof, since)
    ensures |bits| > 0 && Elapsed(clock[from], since) <= prof.ttot ==>
      RiseGap(Emit(bits, prof, clock, from, since).value.pulses, since, 0) == prof.ttot
    decreases |bits|
  {
    if |bits| > 0 {
      var s := SendBit(bits[0], prof, clock, from, since).value;
      var rest := Emit(bits[1..], prof, clock, s.next, s.pulse.rise).value;
      SendBitOnTickingClock(bits[0], prof, clock, from, since);
      EmitOnTickingClock(bits[1..], prof, clock, s.next, s.pulse.rise);
      ExactlyTimedCons(s.pulse, rest.pulses, bits, prof, since);
    }
  }

  /** One bit on an ideal counter fits in `Budget` readings. */
  lemma SendBitOnLongTickingClock(bit: bool, prof: Profile, clock: seq<Reading>, from: nat, since: Reading)
    requires Ticking(clock) && prof.Ordered() && prof.ttot < Modulus - 1
    requires from + Budget(prof) <= |clock|
    ensures SendBit(bit, prof, clock, from, since).Some?
    ensures SendBit(bit, prof, clock, from, since).value.next <= from + Budget(prof)
  {
    SpinWithin(clock, from, since, prof.ttot);
    var k := Spin(clock, from, since, prof.ttot).value;
    var t := BitHigh(prof, bit);
    SpinFromEdge(clock, k, t);
    assert SendBit(bit, prof, clock, from, since) == Some(Step(Pulse(clock[k], clock[k + t]), k + t + 1));
  }

  /** The readings `n` bits may need on an ideal counter, `budget` per bit. */
  function ReadingsFor(n: nat, budget: nat): nat
  {
    if n == 0 then 0 else budget + ReadingsFor(n - 1, budget)
  }

  lemma {:induction false} ReadingsForIsProduct(n: nat, budget: nat)
    ensures ReadingsFor(n, budget) == n * budget
  {
    if n > 0 {
      ReadingsForIsProduct(n - 1, budget);
      assert n * budget == (n - 1) * budget + budget;
    }
  }

  lemma MulMonotone(a: nat, b: nat, c: nat)
    requires a <= b
    ensures a * c <= b * c
  {
  }

  /** An ideal counter with `Budget` readings per bit never runs out before the train ends. */
  lemma {:induction false} EmitOnLongTickingClock(bits: seq<bool>, prof: Profile, clock: seq<Reading>,
                                                  from: nat, since: Reading)
    requires Ticking(clock) && prof.Ordered() && prof.ttot < Modulus - 1
    requires from + ReadingsFor(|bits|, Budget(prof)) <= |clock|
    ensures Emit(bits, prof, clock, from, since).Some?
    decreases |bits|
  {
    if |bits| > 0 {
      SendBitOnLongTickingClock(bits[0], prof, clock, from, since);
      var s := SendBit(bits[0], prof, clock, from, since).value;
      assert |bits[1..]| == |bits| - 1;
      EmitOnLongTickingClock(bits[1..], prof, clock, s.next, s.pulse.rise);
    }
  }

  /**
    Round trip: on an ideal counter a receiver that reads pulses of at least
    `t1h` cycles as 1 recovers exactly the transmitted bits.
   */
  lemma DecodeEmit(bits: seq<bool>, prof: Profile, clock: seq<Reading>, from: nat, since: Reading)
    requires Ticking(clock) && prof.Ordered() && prof.ttot < Modulus - 1
    requires Emit(bits, prof, clock, from, since).Some?
    ensures Decode(Emit(bits, prof, clock, from, since).value.pulses, prof.t1h) == bits
  {
    EmitOnTickingClock(bits, prof, clock, from, since);
  }

  /**
    End to end on an ideal counter with enough readings: the whole buffer goes
    out, with exact timing, and a receiver reassembles exactly the buffer.
   */
  lemma EmitDelivers(bytes: seq<Byte>, prof: Profile, clock: seq<Reading>)
    requires Ticking(clock) && prof.Ordered() && prof.ttot < Modulus - 1
    requires 8 * |bytes| * Budget(prof) <= |clock|
    ensures Emit(BitStream(bytes), prof, clock, 0, 0).Some?
    ensures ExactlyTimed(Emit(BitStream(bytes), prof, clock, 0, 0).value.pulses, BitStream(bytes), prof, 0)
    ensures Pack(Decode(Emit(BitStream(bytes), prof, clock, 0, 0).value.pulses, prof.t1h)) == bytes
  {
    var bits := BitStream(bytes);
    ReadingsForIsProduct(8 * |bytes|, Budget(prof));
    EmitOnLongTickingClock(bits, prof, clock, 0, 0);
    EmitOnTickingClock(bits, prof, clock, 0, 0);
    DecodeEmit(bits, prof, clock, 0, 0);
    PackBitStream(bytes);
  }

  /** The counter reads of one bit: the period wait, then the high wait measured from the rise. */
  method SendOne(bit: bool, prof: Profile, clock: seq<Reading>, from: nat, since: Reading)
    returns (r: Option<Step>)
    ensures r == SendBit(bit, prof, clock, from, since)
  {
    var t := if bit then prof.t1h else prof.t0h;
    var k := WaitUntil(clock, from, since, prof.ttot);
    if k.None? {
      return None;
    }
    var rise := clock[k.value];
    var m := WaitUntil(clock, k.value + 1, rise, t);
    if m.None? {
      return None;
    }
    r := Some(Step(Pulse(rise, clock[m.value]), m.value + 1));
  }

  /** The encoder loop's invariant: what is still to come, after `done`, is `Emit` on the rest. */
  ghost predicate Resumes(bits: seq<bool>, prof: Profile, clock: seq<Reading>, done: seq<Pulse>,
                          pos: nat, since: Reading)
    requires |done| <= |bits|
  {
    Emit(bits, prof, clock, 0, 0) == Then(done, Emit(bits[|done|..], prof, clock, pos, since))
  }

  lemma ResumesAtStart(bits: seq<bool>, prof: Profile, clock: seq<Reading>)
    ensures Resumes(bits, prof, clock, [], 0, 0)
  {
    assert bits[0..] == bits;
    ThenNothing(Emit(bits, prof, clock, 0, 0));
  }

  lemma ResumesAdvance(bits: seq<bool>, prof: Profile, clock: seq<Reading>, done: seq<Pulse>,
                       pos: nat, since: Reading, s: Step)
    requires |done| < |bits| && Resumes(bits, prof, clock, done, pos, since)
    requires SendBit(bits[|done|], prof, clock, pos, since) == Some(s)
    ensures Resumes(bits, prof, clock, done + [s.pulse], s.next, s.pulse.rise)
  {
    var i := |done|;
    EmitSuffix(bits, i, prof, clock, pos, since);
    ThenThen(done, s.pulse, Emit(bits[i + 1..], prof, clock, s.next, s.pulse.rise));
  }

  lemma ResumesStall(bits: seq<bool>, prof: Profile, clock: seq<Reading>, done: seq<Pulse>,
                     pos: nat, since: Reading)
    requires |done| < |bits| && Resumes(bits, prof, clock, done, pos, since)
    requires SendBit(bits[|done|], prof, clock, pos, since).None?
    ensures Emit(bits, prof, clock, 0, 0).None?
  {
    EmitSuffix(bits, |done|, prof, clock, pos, since);
  }

  lemma ResumesAtEnd(bits: seq<bool>, prof: Profile, clock: seq<Reading>, done: seq<Pulse>,
                     pos: nat, since: Reading)
    requires |done| == |bits| && Resumes(bits, prof, clock, done, pos, since)
    ensures Emit(bits, prof, clock, 0, 0) == Some(Emission(done, pos))
  {
    assert bits[|done|..] == [];
    assert done + [] == done;
  }

  /** The encoder's progress: the pulses so far, the next counter reading, the last rising edge. */
  datatype Progress = Progress(trace: seq<Pulse>, pos: nat, startTime: Reading)

  /** The next bit of the stream, sent from the encoder's current progress. */
  method SendNext(bit: bool, prof: Profile, clock: seq<Reading>, st: Progress, ghost bits: seq<bool>)
    returns (r: Option<Progress>)
    requires |st.trace| < |bits| && bits[|st.trace|] == bit
    requires Resumes(bits, prof, clock, st.trace, st.pos, st.startTime)
    ensures r.None? ==> Emit(bits, prof, clock, 0, 0).None?
    ensures r.Some? ==> |r.value.trace| == |st.trace| + 1
    ensures r.Some? ==> Resumes(bits, prof, clock, r.value.trace, r.value.pos, r.value.startTime)
  {
    var s := SendOne(bit, prof, clock, st.pos, st.startTime);
    if s.None? {
      ResumesStall(bits, prof, clock, st.trace, st.pos, st.startTime);
      return None;
    }
    ResumesAdvance(bits, prof, clock, st.trace, st.pos, st.startTime, s.value);
    r := Some(Progress(st.trace + [s.value.pulse], s.value.next, s.value.pulse.rise));
  }

  /**
    One byte of the firmware's bit loop: the mask walks from `0x80` down to
    zero, one pulse per bit. `None`: the counter window ended during a wait.
   */
  method ShiftOutByte(pixel: Byte, prof: Profile, clock: seq<Reading>, st: Progress,
                      ghost bits: seq<bool>)
    returns (r: Option<Progress>)
    requires CarriesByte(bits, |st.trace|, pixel)
    requires Resumes(bits, prof, clock, st.trace, st.pos, st.startTime)
    ensures r.None? ==> Emit(bits, prof, clock, 0, 0).None?
    ensures r.Some? ==> |r.value.trace| == |st.trace| + 8
    ensures r.Some? ==> Resumes(bits, prof, clock, r.value.trace, r.value.pos, r.value.startTime)
  {
    ghost var j: nat := 0;
    var mask: Byte := 0x80;
    var cur := st;
    while mask != 0
      invariant j <= 8 && mask == MaskAt(j) && (mask != 0 <==> j < 8)
      invariant |cur.trace| == |st.trace| + j
      invariant Resumes(bits, prof, clock, cur.trace, cur.pos, cur.startTime)
      decreases 8 - j
    {
      var bit := TestBit(pixel, mask, j);
      assert bits[|cur.trace|] == bit;
      var next := SendNext(bit, prof, clock, cur, bits);
      if next.None? {
        return None;
      }
      cur := next.value;
      mask := ShiftMask(mask, j);
      j := j + 1;
    }
    return Some(cur);
  }

  /**
    The firmware's bit loop (`ws2812_write`, `ws281x_write`): the byte pointer
    walks `pixels[..length]`, each byte sent MSB-first. The first byte is read
    before the end is checked, so a `length` of 0 still sends `pixels[0]`.
   */
  method EncodeBytes(pixels: seq<Byte>, length: nat, prof: Profile, clock: seq<Reading>)
    returns (r: Option<seq<Pulse>>)
    requires 1 <= |pixels| && length <= |pixels|
    ensures length >= 1 ==> r == Pulses(Emit(BitStream(pixels[..length]), prof, clock, 0, 0))
    ensures length == 0 ==> r == Pulses(Emit(BitStream(pixels[..1]), prof, clock, 0, 0))
  {
    ghost var len := if length == 0 then 1 else length;
    ghost var bytes := pixels[..len];
    ghost var bits := BitStream(bytes);
    var p := 0;
    var st := Progress([], 0, 0);
    ResumesAtStart(bits, prof, clock);
    while true
      invariant p < len && |st.trace| == 8 * p
      invariant Resumes(bits, prof, clock, st.trace, st.pos, st.startTime)
      decreases len - p
    {
      StreamByte(bytes, p, |st.trace|);
      var next := ShiftOutByte(pixels[p], prof, clock, st, bits);
      if next.None? {
        return None;
      }
      st := next.value;
      p := p + 1;
      if p >= length {
        break;
      }
    }
    ResumesAtEnd(bits, prof, clock, st.trace, st.pos, st.startTime);
    r := Some(st.trace);
  }
}

=== FILE: rtcmem.dfy ===
/**
  The `rtcmem` module: Lua access to the RTC user memory as an array of
  32-bit words. The number of words is the length of the array the model
  is given; `rtc/rtcaccess.h`, which fixes it, is not part of this model.
 */
module RtcMem {
  import opened Wrappers
  import opened LuaArgs

  /** One word of RTC user memory. */
  type Word = x: int | 0 <= x < 0x1_0000_0000

  function Min(a: int, b: int): int
  {
    if a <= b then a else b
  }

  /** `lua_tonumber`: the argument's value, or 0 for anything that is not a number. */
  function ToNumber(a: Arg): int
  {
    match a
    case Number(v) => v
    case NotNumber => 0
  }

  /**
    The words `read32(idx, n)` returns: from `idx` upwards, as many as asked for
    and the memory holds, or none when `idx` is outside the memory or `n <= 0`.
   */
  function Window(mem: seq<Word>, idx: int, n: int): (r: seq<Word>)
    ensures 0 <= idx < |mem| && n > 0 ==> |r| == Min(n, |mem| - idx)
    ensures !(0 <= idx < |mem|) || n <= 0 ==> r == []
    ensures forall k :: 0 <= k < |r| ==> 0 <= idx + k < |mem| && r[k] == mem[idx + k]
  {
    if 0 <= idx < |mem| && n > 0 then mem[idx..idx + Min(n, |mem| - idx)] else []
  }

  /** The count argument of `read32`: 1 unless a number is given. */
  function ReadCount(args: seq<Arg>): int
  {
    if ArgAt(args, 1).Number? then ArgAt(args, 1).value else 1
  }

  /**
    `rtcmem.read32(idx [, n])`: the index must be a number; `room` is whether
    Lua can grow its stack by the requested count (nothing is returned if not).
    The loop pushes words while any are asked for and the index is in range.
   */
  method Read32(mem: seq<Word>, args: seq<Arg>, room: bool) returns (r: Result<seq<Word>>)
    ensures !ArgAt(args, 0).Number? <==> r.Failure?
    ensures r.Failure? ==> r.error == "number expected"
    ensures r.Success? && !room ==> r.value == []
    ensures r.Success? && room ==> r.value == Window(mem, ArgAt(args, 0).value, ReadCount(args))
  {
    if !ArgAt(args, 0).Number? {
      return Failure("number expected");
    }
    var idx := ArgAt(args, 0).value;
    var n := ReadCount(args);
    if !room {
      return Success([]);
    }
    ghost var idx0, n0 := idx, n;
    var pushed: seq<Word> := [];
    while n > 0 && idx >= 0 && idx < |mem|
      invariant idx == idx0 + |pushed| && n == n0 - |pushed|
      invariant |pushed| > 0 ==> 0 <= idx0 && idx <= |mem|
      invariant |pushed| <= |Window(mem, idx0, n0)|
      invariant pushed == Window(mem, idx0, n0)[..|pushed|]
      decreases n
    {
      pushed := pushed + [mem[idx]];
      idx := idx + 1;
      n := n - 1;
    }
    assert |pushed| == |Window(mem, idx0, n0)|;
    r := Success(pushed);
  }

  /** The memory with `words` stored from `idx` on. */
  function Store(mem: seq<Word>, idx: nat, words: seq<Word>): (r: seq<Word>)
    requires idx + |words| <= |mem|
    ensures |r| == |mem|
    ensures forall k :: 0 <= k < |words| ==> r[idx + k] == words[k]
    ensures forall j :: 0 <= j < |mem| && !(idx <= j < idx + |words|) ==> r[j] == mem[j]
  {
    mem[..idx] + words + mem[idx + |words|..]
  }

  /** The words `write32` stores: every argument after the index, as a `uint32_t`. */
  function Values(args: seq<Arg>): (r: seq<Word>)
    requires |args| >= 1
    ensures |r| == |args| - 1
  {
    seq(|args| - 1, k requires 0 <= k < |args| - 1 => U32(ToNumber(args[k + 1])))
  }

  /** The range check as written: only the upper end of the written words is checked. */
  function WriteGuardAsWritten(idx: int, n: nat, num: nat): (ok: bool)
    ensures idx >= 0 || n == 0 ==> (ok <==> WriteInRange(idx, n, num))
  {
    idx + n <= num
  }

  /**
    The range check as intended: the upper-end test of the source, and a
    non-negative index whenever a word is written. With no values nothing is
    written, so any index up to the end of the memory passes, as in the source.
   */
  predicate WriteInRange(idx: int, n: nat, num: nat)
  {
    idx + n <= num && (n == 0 || 0 <= idx)
  }

  /** Word `j` is a word of a memory of `num` words. */
  predicate Inside(j: int, num: nat)
  {
    0 <= j < num
  }

  /** The intended guard admits a write exactly when every word it writes lies inside the memory. */
  lemma WriteInRangeMeansInside(idx: int, n: nat, num: nat)
    requires idx + n <= num
    ensures WriteInRange(idx, n, num) <==> forall j :: idx <= j < idx + n ==> Inside(j, num)
  {
    if !WriteInRange(idx, n, num) {
      assert !Inside(idx, num);
    }
  }

  /**
    A write of one word at index -1 passes the guard as written although word -1
    is outside the user memory; the intended guard refuses it.
   */
  lemma WriteGuardAdmitsNegative(num: nat)
    ensures WriteGuardAsWritten(-1, 1, num)
    ensures !WriteInRange(-1, 1, num)
  {
  }

  /**
    `rtcmem.write32(idx, v1, ..., vn)` with the range check applied to both ends:
    the words go to `idx` to `idx + n - 1` and nothing else changes. A call with
    no values writes nothing and returns normally, whatever its index.
   */
  method Write32(mem: seq<Word>, args: seq<Arg>) returns (r: Result<seq<Word>>)
    ensures !ArgAt(args, 0).Number? ==> r == Failure("number expected")
    ensures ArgAt(args, 0).Number? ==>
      (r.Failure? <==> !WriteInRange(args[0].value, |args| - 1, |mem|))
    ensures ArgAt(args, 0).Number? && r.Failure? ==> r.error == "RTC mem would overrun"
    ensures r.Success? && |args| == 1 ==> r.value == mem
    ensures r.Success? && |args| > 1 ==>
      args[0].value >= 0 && r.value == Store(mem, args[0].value, Values(args))
  {
    if !ArgAt(args, 0).Number? {
      return Failure("number expected");
    }
    var idx := args[0].value;
    var n := |args| - 1;
    if !WriteInRange(idx, n, |mem|) {
      return Failure("RTC mem would overrun");
    }
    if n == 0 {
      // the loop would not run: no word is written
      return Success(mem);
    }
    var m := mem;
    var src := 1;
    while src <= n
      invariant 1 <= src <= n + 1
      invariant m == Store(mem, idx, Values(args)[..src - 1])
    {
      var w := U32(ToNumber(args[src]));
      assert Values(args)[..src] == Values(args)[..src - 1] + [w];
      m := m[idx + src - 1 := w];
      src := src + 1;
    }
    assert Values(args)[..n] == Values(args);
    r := Success(m);
  }

  /** Reading back what `write32` stored returns the stored words. */
  lemma ReadBack(mem: seq<Word>, idx: nat, words: seq<Word>)
    requires idx + |words| <= |mem| && |words| > 0
    ensures Window(Store(mem, idx, words), idx, |words|) == words
  {
  }

  /** A `write32` with no values changes nothing. */
  lemma WriteNothing(mem: seq<Word>, idx: nat)
    requires idx <= |mem|
    ensures Store(mem, idx, []) == mem
  {
  }
}

=== FILE: timing.dfy ===
/**
  Timing profiles: the three pulse durations, in CPU cycles, that every
  single-wire encoder derives from the CPU clock frequency.
 */
module Timing {

  /** `system_get_cpu_freq()`: the CPU runs at 80 or 160 MHz. */
  type CpuMhz = f: int | f == 80 || f == 160 witness 80

  /**
    `t0h`: high time of a 0 bit; `t1h`: high time of a 1 bit; `ttot`: the floor
    on the time between two consecutive rising edges.
   */
  datatype Profile = Profile(t0h: nat, t1h: nat, ttot: nat) {

    /** The dual encoder's `t01h`: the high time of the 1-pin when the two pins disagree. */
    function Mixed(): nat
    {
      t0h + t1h
    }

    /** A 0 is shorter than a 1, and both fit inside one period. */
    predicate Ordered()
    {
      0 < t0h < t1h < ttot
    }

    /**
      Both high times lie inside the WS2812 datasheet windows quoted in the
      source, T0H = 0.35 +- 0.15 us and T1H = 0.70 +- 0.15 us, at `mhz` cycles per us.
     */
    predicate InDatasheetWindows(mhz: CpuMhz)
    {
      T0hInWindow(mhz, t0h) && T1hInWindow(mhz, t1h)
    }

    /** The period lasts at least `ns` nanoseconds at `mhz` cycles per microsecond. */
    predicate PeriodAtLeast(mhz: CpuMhz, ns: nat)
    {
      1000 * ttot >= ns * mhz
    }
  }

  /** A high time of `cycles` lies in the T0H window, 0.20 to 0.50 us, at `mhz` cycles per us. */
  predicate T0hInWindow(mhz: CpuMhz, cycles: nat)
  {
    5 * cycles >= mhz && 2 * cycles <= mhz
  }

  /** A high time of `cycles` lies in the T1H window, 0.55 to 0.85 us, at `mhz` cycles per us. */
  predicate T1hInWindow(mhz: CpuMhz, cycles: nat)
  {
    20 * cycles >= 11 * mhz && 20 * cycles <= 17 * mhz
  }

  /** The firmware's duration formula: `(1000 * f) / divisor` cycles, truncated. */
  function Cycles(mhz: CpuMhz, divisor: nat): nat
    requires divisor > 0
  {
    (1000 * mhz) / divisor
  }

  /** The profile of the `ws2812` module's single-channel writer. */
  function Ws2812Profile(mhz: CpuMhz): (p: Profile)
    ensures p.Ordered()
    ensures p.InDatasheetWindows(mhz)
    ensures p.PeriodAtLeast(mhz, 1250)
  {
    Profile(Cycles(mhz, 3333), Cycles(mhz, 1666), Cycles(mhz, 800))
  }

  /** The profile of the `ws2812` module's dual-channel writer. */
  function DualProfile(mhz: CpuMhz): (p: Profile)
    ensures p.Ordered() && p.Mixed() < p.ttot
    ensures p.InDatasheetWindows(mhz)
    ensures p.PeriodAtLeast(mhz, 1250)
  {
    Profile(Cycles(mhz, 2857), Cycles(mhz, 1428), Cycles(mhz, 800))
  }

  /**
    The dual writer's `t01h = t1h + t0h`, the time the 1-pin stays high when
    the two pins disagree, lies outside the T1H window at both clock rates
    (84 cycles, 1.05 us, at 80 MHz), while `t1h` alone lies inside it.
   */
  lemma DualMixedHighOutOfWindow(mhz: CpuMhz)
    ensures !T1hInWindow(mhz, DualProfile(mhz).Mixed())
    ensures T1hInWindow(mhz, DualProfile(mhz).t1h)
    ensures mhz == 80 ==> DualProfile(mhz).Mixed() == 84 && DualProfile(mhz).t1h == 56
  {
  }

  /** The two protocols of the shared driver (`is_ws2812` false or true). */
  datatype Variant = Ws2811 | Ws2812

  /** The period floor each variant demands, in nanoseconds. */
  function RequiredPeriodNs(v: Variant): nat
  {
    match v
    case Ws2811 => 1500
    case Ws2812 => 1250
  }

  /** The shared driver's profile exactly as written: the WS2811 period uses divisor 667. */
  function Ws281xProfileAsWritten(mhz: CpuMhz, v: Variant): (p: Profile)
    ensures p.Ordered()
    ensures p.InDatasheetWindows(mhz)
  {
    Profile(Cycles(mhz, 2857), Cycles(mhz, 1429),
            if v == Ws2812 then Cycles(mhz, 800) else Cycles(mhz, 667))
  }

  /** The WS2811 period as written falls just short of 1.50 us at both clock rates. */
  lemma Ws2811PeriodAsWrittenTooShort(mhz: CpuMhz)
    ensures !Ws281xProfileAsWritten(mhz, Ws2811).PeriodAtLeast(mhz, RequiredPeriodNs(Ws2811))
    ensures Ws281xProfileAsWritten(mhz, Ws2811).ttot == (if mhz == 80 then 119 else 239)
  {
  }

  /** The shared driver's profile with the WS2811 divisor that meets 1.50 us (666). */
  function Ws281xProfile(mhz: CpuMhz, v: Variant): (p: Profile)
    ensures p.Ordered()
    ensures p.InDatasheetWindows(mhz)
    ensures p.PeriodAtLeast(mhz, RequiredPeriodNs(v))
  {
    Profile(Cycles(mhz, 2857), Cycles(mhz, 1429),
            if v == Ws2812 then Cycles(mhz, 800) else Cycles(mhz, 666))
  }

  /** WS2811 waits longer per bit than WS2812; the high times do not depend on the variant. */
  lemma Ws2811SlowerThanWs2812(mhz: CpuMhz)
    ensures Ws281xProfile(mhz, Ws2811).ttot > Ws281xProfile(mhz, Ws2812).ttot
    ensures Ws281xProfileAsWritten(mhz, Ws2811).ttot > Ws281xProfileAsWritten(mhz, Ws2812).ttot
    ensures Ws281xProfile(mhz, Ws2811).t0h == Ws281xProfile(mhz, Ws2812).t0h
    ensures Ws281xProfile(mhz, Ws2811).t1h == Ws281xProfile(mhz, Ws2812).t1h
    ensures Ws281xProfileAsWritten(mhz, Ws2811).t0h == Ws281xProfileAsWritten(mhz, Ws2812).t0h
    ensures Ws281xProfileAsWritten(mhz, Ws2811).t1h == Ws281xProfileAsWritten(mhz, Ws2812).t1h
  {
  }
}

=== FILE: wrappers.dfy ===
/** Failure-carrying result types shared by the model. */
module Wrappers {

  /** A value that may be missing. */
  datatype Option<+T> = None | Some(value: T)

  /** The outcome of an operation that can raise an error with a message. */
  datatype Result<+T> = Success(value: T) | Failure(error: string)
}

=== FILE: ws2801.dfy ===
/**
  The WS2801 driver: a clocked serial line bit-banged on two GPIO pins
  through the write-1-to-set / write-1-to-clear output registers, or the
  hardware SPI port. The module keeps one configuration (the two pin masks and
  the mode flag) that `init` sets and `write` reads.
 */
module Ws2801 {
  import opened Wrappers
  import opened Bits
  import opened LuaArgs

  /** Default clock and data pins, and the argument that selects the SPI port. */
  const PinClkDefault: nat := 0
  const PinDataDefault: nat := 2
  const UseHspi: int := -1

  /** The strip length travels as an unsigned 16-bit count. */
  const LenModulus: nat := 0x1_0000

  /** A set of GPIO outputs, one bit per pin. */
  type Mask = bv32

  /** One write to the hardware: a set register, a clear register, or one SPI byte. */
  datatype Event = SetBits(mask: Mask) | ClearBits(mask: Mask) | SpiByte(b: Byte)

  /** The module's static state: the clock and data pin masks and the SPI mode flag. */
  datatype Config = Config(bitClk: Mask, bitData: Mask, hspi: bool)

  /** Static storage starts zeroed. */
  const Boot := Config(0, 0, false)

  /** The output bit of a pin. */
  function PinMask(pin: nat): (m: Mask)
    requires pin < 32
    ensures m != 0
  {
    1 << pin
  }

  /** Two pins share no output bit exactly when they are different pins. */
  lemma PinMasksDisjoint(p: nat, q: nat)
    requires p < 32 && q < 32
    ensures PinMask(p) & PinMask(q) == 0 <==> p != q
  {
  }

  /** What `init` leaves behind: the new state, the integer it returns, and its register writes. */
  datatype Setup = Setup(config: Config, res: int, events: seq<Event>)

  /** Bit-banging setup: masks from the pins, mode flag cleared, both lines driven low. */
  function InitGpio(pinClk: nat, pinData: nat): (r: Setup)
    requires pinClk < 32 && pinData < 32
    ensures !r.config.hspi && r.res == 0
    ensures r.config.bitClk == PinMask(pinClk) && r.config.bitData == PinMask(pinData)
  {
    var clk := PinMask(pinClk);
    var data := PinMask(pinData);
    Setup(Config(clk, data, false), 0, [ClearBits(clk | data)])
  }

  /** The shift `1 << pin` is defined only for pins below 32. */
  predicate PinsShiftable(args: seq<Arg>)
  {
    ArgAt(args, 0).Number? && ArgAt(args, 1).Number? ==>
      U32(ArgAt(args, 0).value) < 32 && U32(ArgAt(args, 1).value) < 32
  }

  /**
    `ws2801.init(...)`: two numbers select bit-banging on those pins, the single
    number -1 selects the SPI port (whose setup result, outside this model, is
    `spiSetup`), any other single number is an error, and no number at all
    selects the default pins.
   */
  function Init(args: seq<Arg>, prior: Config, spiSetup: int): (r: Result<Setup>)
    requires PinsShiftable(args)
    ensures r.Failure? <==>
      ArgAt(args, 0).Number? && !ArgAt(args, 1).Number? && ArgAt(args, 0).value != UseHspi
    ensures r.Failure? ==> r.error == "wrong arg range"
    ensures r.Success? ==> (r.value.config.hspi <==> ArgAt(args, 0) == Number(UseHspi) && !ArgAt(args, 1).Number?)
    ensures r.Success? && r.value.config.hspi ==>
      r.value.config.bitClk == prior.bitClk && r.value.config.bitData == prior.bitData
      && r.value.res == spiSetup && r.value.events == []
    ensures r.Success? && !r.value.config.hspi ==>
      var pins := if ArgAt(args, 0).Number? then [U32(args[0].value), U32(args[1].value)]
                  else [PinClkDefault, PinDataDefault];
      && r.value.config == Config(PinMask(pins[0]), PinMask(pins[1]), false)
      && r.value.res == 0
      && r.value.events == [ClearBits(r.value.config.bitClk | r.value.config.bitData)]
  {
    match ArgAt(args, 0)
    case NotNumber => Success(InitGpio(PinClkDefault, PinDataDefault))
    case Number(clk) =>
      match ArgAt(args, 1)
      case Number(data) => Success(InitGpio(U32(clk), U32(data)))
      case NotNumber =>
        if clk == UseHspi then Success(Setup(prior.(hspi := true), spiSetup, []))
        else Failure("wrong arg range")
  }

  /** Calling `init` with no numbers is the same as naming pins 0 and 2. */
  lemma InitDefault(args: seq<Arg>, prior: Config, spiSetup: int)
    requires !ArgAt(args, 0).Number?
    ensures Init(args, prior, spiSetup)
      == Init([Number(PinClkDefault as int), Number(PinDataDefault as int)], prior, spiSetup)
  {
  }

  /** Whether a register write with mask `m` reaches the line with mask `w`. */
  predicate Hits(m: Mask, w: Mask)
  {
    m & w != 0
  }

  /** The levels of the clock and data lines. */
  datatype Lines = Lines(clk: bool, data: bool)

  /** The lines after one write: set and clear move the lines they hit; SPI bytes touch neither. */
  function Drive(e: Event, cfg: Config, lv: Lines): Lines
  {
    match e
    case SetBits(m) => Lines(lv.clk || Hits(m, cfg.bitClk), lv.data || Hits(m, cfg.bitData))
    case ClearBits(m) => Lines(lv.clk && !Hits(m, cfg.bitClk), lv.data && !Hits(m, cfg.bitData))
    case SpiByte(_) => lv
  }

  /** The lines after a sequence of writes. */
  function Run(events: seq<Event>, cfg: Config, lv: Lines): Lines
    decreases |events|
  {
    if |events| == 0 then lv else Run(events[1..], cfg, Drive(events[0], cfg, lv))
  }

  /** What one write makes a WS2801 latch: the data level if the clock rises, else nothing. */
  function Latched(e: Event, cfg: Config, lv: Lines): seq<bool>
  {
    var next := Drive(e, cfg, lv);
    if !lv.clk && next.clk then [next.data] else []
  }

  /**
    What a WS2801 reads from the lines: the data level at every rising edge of
    the clock, in order.
   */
  function Observe(events: seq<Event>, cfg: Config, lv: Lines): seq<bool>
    decreases |events|
  {
    if |events| == 0 then []
    else Latched(events[0], cfg, lv) + Observe(events[1..], cfg, Drive(events[0], cfg, lv))
  }

  lemma {:induction false} ObserveAppend(a: seq<Event>, b: seq<Event>, cfg: Config, lv: Lines)
    ensures Observe(a + b, cfg, lv) == Observe(a, cfg, lv) + Observe(b, cfg, Run(a, cfg, lv))
    ensures Run(a + b, cfg, lv) == Run(b, cfg, Run(a, cfg, lv))
    decreases |a|
  {
    if |a| == 0 {
      assert a + b == b;
    } else {
      var next := Drive(a[0], cfg, lv);
      var latched := Latched(a[0], cfg, lv);
      assert (a + b)[0] == a[0];
      assert (a + b)[1..] == a[1..] + b;
      ObserveAppend(a[1..], b, cfg, next);
      var x, y := Observe(a[1..], cfg, next), Observe(b, cfg, Run(a[1..], cfg, next));
      assert latched + (x + y) == (latched + x) + y;
    }
  }

  /** One bit: data line to the bit, then a clock pulse (high, then low). */
  function BitEvents(cfg: Config, bit: bool): (r: seq<Event>)
    ensures |r| == 3
  {
    [if bit then SetBits(cfg.bitData) else ClearBits(cfg.bitData), SetBits(cfg.bitClk), ClearBits(cfg.bitClk)]
  }

  /** A run of bits, one clock pulse each. */
  function BitsEvents(cfg: Config, bits: seq<bool>): (r: seq<Event>)
    ensures |r| == 3 * |bits|
  {
    if |bits| == 0 then [] else BitEvents(cfg, bits[0]) + BitsEvents(cfg, bits[1..])
  }

  lemma {:induction false} BitsEventsAppend(cfg: Config, a: seq<bool>, b: seq<bool>)
    ensures BitsEvents(cfg, a + b) == BitsEvents(cfg, a) + BitsEvents(cfg, b)
  {
    if |a| == 0 {
      assert a + b == b;
    } else {
      assert (a + b)[0] == a[0];
      assert (a + b)[1..] == a[1..] + b;
      BitsEventsAppend(cfg, a[1..], b);
    }
  }

  /** `ws2801_strip` on a buffer: every bit MSB first, then the data line low. */
  function StripEvents(cfg: Config, data: seq<Byte>): seq<Event>
  {
    BitsEvents(cfg, BitStream(data)) + [ClearBits(cfg.bitData)]
  }

  /** Clock and data on distinct lines, so that each write moves only the line it names. */
  predicate Wired(cfg: Config)
  {
    Hits(cfg.bitClk, cfg.bitClk) && Hits(cfg.bitData, cfg.bitData) && !Hits(cfg.bitClk, cfg.bitData)
  }

  /** Two distinct pins are wired. */
  lemma PinsWired(pinClk: nat, pinData: nat)
    requires pinClk < 32 && pinData < 32 && pinClk != pinData
    ensures Wired(Config(PinMask(pinClk), PinMask(pinData), false))
  {
    PinMasksDisjoint(pinClk, pinData);
    PinMasksDisjoint(pinClk, pinClk);
    PinMasksDisjoint(pinData, pinData);
  }

  /**
    One bit with the clock low: the receiver latches exactly that bit on the
    single rising edge, and the clock is low again afterwards with the bit
    still on the data line.
   */
  lemma ObserveBit(cfg: Config, bit: bool, lv: Lines)
    requires Wired(cfg) && !lv.clk
    ensures Observe(BitEvents(cfg, bit), cfg, lv) == [bit]
    ensures Run(BitEvents(cfg, bit), cfg, lv) == Lines(false, bit)
  {
    assert Hits(cfg.bitData, cfg.bitClk) == Hits(cfg.bitClk, cfg.bitData);
    var e := BitEvents(cfg, bit);
    var l1 := Drive(e[0], cfg, lv);
    assert l1 == Lines(false, bit);
    var l2 := Drive(e[1], cfg, l1);
    assert l2 == Lines(true, bit);
    assert Drive(e[2], cfg, l2) == Lines(false, bit);
    assert e[1..][1..] == [e[2]] && [e[2]][1..] == [];
    assert Observe([e[2]], cfg, l2) == [];
    assert Observe(e[1..], cfg, l1) == [bit];
    assert Run([e[2]], cfg, l2) == Lines(false, bit);
    assert Run(e[1..], cfg, l1) == Lines(false, bit);
  }

  /** A run of bits with the clock low: the receiver latches exactly those bits. */
  lemma {:induction false} ObserveBits(cfg: Config, bits: seq<bool>, lv: Lines)
    requires Wired(cfg) && !lv.clk
    ensures Observe(BitsEvents(cfg, bits), cfg, lv) == bits
    ensures !Run(BitsEvents(cfg, bits), cfg, lv).clk
  {
    if |bits| > 0 {
      var head := BitEvents(cfg, bits[0]);
      ObserveAppend(head, BitsEvents(cfg, bits[1..]), cfg, lv);
      ObserveBit(cfg, bits[0], lv);
      ObserveBits(cfg, bits[1..], Run(head, cfg, lv));
      assert [bits[0]] + bits[1..] == bits;
    }
  }

  /**
    A strip write: the receiver sees one clock pulse per bit and reassembles the
    buffer; afterwards both lines are low.
   */
  lemma StripDelivers(cfg: Config, data: seq<Byte>, lv: Lines)
    requires Wired(cfg) && !lv.clk
    ensures |Observe(StripEvents(cfg, data), cfg, lv)| == 8 * |data|
    ensures Pack(Observe(StripEvents(cfg, data), cfg, lv)) == data
    ensures Run(StripEvents(cfg, data), cfg, lv) == Lines(false, false)
  {
    var body := BitsEvents(cfg, BitStream(data));
    var tail := [ClearBits(cfg.bitData)];
    ObserveAppend(body, tail, cfg, lv);
    ObserveBits(cfg, BitStream(data), lv);
    assert tail[1..] == [];
    assert Observe(tail, cfg, Run(body, cfg, lv)) == [];
    assert Observe(StripEvents(cfg, data), cfg, lv) == BitStream(data) + [];
    assert BitStream(data) + [] == BitStream(data);
    PackBitStream(data);
  }

  /** The events of the first `j + 1` bits of a byte extend those of the first `j`. */
  lemma NextBitEvents(cfg: Config, n: Byte, j: nat)
    requires j < 8
    ensures BitsEvents(cfg, ByteBits(n)[..j + 1]) == BitsEvents(cfg, ByteBits(n)[..j]) + BitEvents(cfg, Bit(n, j))
  {
    ByteBitsAt(n, j);
    BitsEventsAppend(cfg, ByteBits(n)[..j], [Bit(n, j)]);
    assert ByteBits(n)[..j + 1] == ByteBits(n)[..j] + [Bit(n, j)];
    assert BitsEvents(cfg, [Bit(n, j)]) == BitEvents(cfg, Bit(n, j)) + BitsEvents(cfg, []);
  }

  /** `ws2801_byte`: the mask loop, data line then clock pulse for each bit. */
  method SendByte(cfg: Config, n: Byte) returns (events: seq<Event>)
    ensures events == BitsEvents(cfg, ByteBits(n))
  {
    events := [];
    var mask: Byte := 0x80;
    ghost var j: nat := 0;
    while mask != 0
      invariant j <= 8 && mask == MaskAt(j) && (mask != 0 <==> j < 8)
      invariant events == BitsEvents(cfg, ByteBits(n)[..j])
      decreases 8 - j
    {
      var bit := TestBit(n, mask, j);
      NextBitEvents(cfg, n, j);
      events := events + BitEvents(cfg, bit);
      mask := ShiftMask(mask, j);
      j := j + 1;
    }
    assert ByteBits(n)[..j] == ByteBits(n);
  }

  /** `ws2801_strip`: the first `len` bytes, then the data line low. */
  method Strip(cfg: Config, data: seq<Byte>, len: nat) returns (events: seq<Event>)
    requires len <= |data| && len < LenModulus
    ensures events == StripEvents(cfg, data[..len])
  {
    events := [];
    var i := 0;
    while i < len
      invariant i <= len
      invariant events == BitsEvents(cfg, BitStream(data[..i]))
    {
      var e := SendByte(cfg, data[i]);
      assert data[..i + 1] == data[..i] + [data[i]];
      BitStreamAppend(data[..i], [data[i]]);
      assert [data[i]][1..] == [];
      assert BitStream([data[i]]) == ByteBits(data[i]) + BitStream([]);
      assert ByteBits(data[i]) + [] == ByteBits(data[i]);
      BitsEventsAppend(cfg, BitStream(data[..i]), ByteBits(data[i]));
      events := events + e;
      i := i + 1;
    }
    events := events + [ClearBits(cfg.bitData)];
  }

  /** `ws2801_strip_hspi` on a buffer: one SPI transfer per byte. */
  function SpiEvents(data: seq<Byte>): (r: seq<Event>)
    ensures |r| == |data|
  {
    seq(|data|, i requires 0 <= i < |data| => SpiByte(data[i]))
  }

  /** The bytes an SPI receiver clocks in from a sequence of writes. */
  function SpiReceived(events: seq<Event>): seq<Byte>
  {
    if |events| == 0 then []
    else (if events[0].SpiByte? then [events[0].b] else []) + SpiReceived(events[1..])
  }

  /** Every byte of the buffer is transferred once, in order. */
  lemma {:induction false} SpiDelivers(data: seq<Byte>)
    ensures SpiReceived(SpiEvents(data)) == data
  {
    if |data| > 0 {
      assert SpiEvents(data)[1..] == SpiEvents(data[1..]);
      SpiDelivers(data[1..]);
    }
  }

  /** The SPI path moves neither line. */
  lemma {:induction false} SpiLeavesLines(data: seq<Byte>, cfg: Config, lv: Lines)
    ensures Run(SpiEvents(data), cfg, lv) == lv
    ensures Observe(SpiEvents(data), cfg, lv) == []
  {
    if |data| > 0 {
      assert SpiEvents(data)[1..] == SpiEvents(data[1..]);
      SpiLeavesLines(data[1..], cfg, lv);
    }
  }

  method StripHspi(data: seq<Byte>, len: nat) returns (events: seq<Event>)
    requires len <= |data| && len < LenModulus
    ensures events == SpiEvents(data[..len])
  {
    events := [];
    var i := 0;
    while i < len
      invariant i <= len
      invariant events == SpiEvents(data[..i])
    {
      events := events + [SpiByte(data[i])];
      i := i + 1;
    }
  }

  /** The bytes that go out: the length is cut to 16 bits on the way to the strip routines. */
  function Sent(buffer: seq<Byte>): (r: seq<Byte>)
    ensures |buffer| < LenModulus ==> r == buffer
    ensures r <= buffer
    ensures |r| == |buffer| % LenModulus
  {
    buffer[..|buffer| % LenModulus]
  }

  /** The register writes of one `ws2801.write` under configuration `cfg`. */
  function WriteEvents(cfg: Config, buffer: seq<Byte>): seq<Event>
  {
    if cfg.hspi then SpiEvents(Sent(buffer)) else StripEvents(cfg, Sent(buffer))
  }

  /** `ws2801.write(s)`: the mode flag picks the path; the full string length is returned. */
  method Write(cfg: Config, buffer: seq<Byte>) returns (events: seq<Event>, count: nat)
    ensures events == WriteEvents(cfg, buffer)
    ensures count == |buffer|
  {
    var len := |buffer| % LenModulus;
    if cfg.hspi {
      events := StripHspi(buffer, len);
    } else {
      events := Strip(cfg, buffer, len);
    }
    count := |buffer|;
  }

  /**
    After `init` on two distinct pins, a `write` of a buffer shorter than 64 KiB
    reaches the strip intact over the bit-banged lines.
   */
  lemma GpioWriteDelivers(pinClk: nat, pinData: nat, buffer: seq<Byte>, lv: Lines)
    requires pinClk < 32 && pinData < 32 && pinClk != pinData
    requires |buffer| < LenModulus
    ensures var s := InitGpio(pinClk, pinData);
      var ready := Run(s.events, s.config, lv);
      && ready == Lines(false, false)
      && Pack(Observe(WriteEvents(s.config, buffer), s.config, ready)) == buffer
  {
    var s := InitGpio(pinClk, pinData);
    PinsWired(pinClk, pinData);
    assert s.config == Config(PinMask(pinClk), PinMask(pinData), false);
    ClearBoth(s.config.bitClk, s.config.bitData);
    assert s.events[1..] == [];
    assert Run(s.events, s.config, lv) == Drive(s.events[0], s.config, lv) == Lines(false, false);
    StripDelivers(s.config, buffer, Run(s.events, s.config, lv));
  }

  /** Clearing both masks at once hits both lines. */
  lemma ClearBoth(a: Mask, b: Mask)
    requires Hits(a, a) && Hits(b, b)
    ensures Hits(a | b, a) && Hits(a | b, b)
  {
  }

  /** After `init(-1)`, a `write` of a buffer shorter than 64 KiB goes out over SPI intact. */
  lemma HspiWriteDelivers(prior: Config, spiSetup: int, buffer: seq<Byte>)
    requires |buffer| < LenModulus
    ensures var r := Init([Number(UseHspi)], prior, spiSetup);
      r.Success? && SpiReceived(WriteEvents(r.value.config, buffer)) == buffer
  {
    SpiDelivers(buffer);
  }

  /** A 64 KiB string or longer: only its length modulo 65536 goes out, yet the full length is returned. */
  lemma LongWriteTruncated(cfg: Config, buffer: seq<Byte>)
    requires cfg.hspi && |buffer| == LenModulus
    ensures WriteEvents(cfg, buffer) == []
  {
  }
}

=== FILE: ws2812.dfy ===
/**
  The `ws2812` module's single-pin writers: `ws2812.write`, which sends a
  buffer already in the LEDs' G R B order, and `ws2812.writergb`, which first
  copies the buffer, drops an incomplete trailing triplet and swaps the first
  two bytes of every triplet (R G B to G R B).

  `ws2812.writedual` splits one string between two pins.

  A Lua string is handed to C with a terminating NUL byte after its `|s|`
  bytes, so the encoders may read `s + [0]`.
 */
module Ws2812 {
  import opened Wrappers
  import opened CycleClock
  import opened Bits
  import opened Timing
  import opened PulseTrain
  import opened DualTrain

  /** The bytes `ws2812.write` puts on the wire: an empty string still sends its NUL. */
  function WriteFrame(s: seq<Byte>): seq<Byte>
  {
    if |s| == 0 then [0] else s
  }

  /** `ws2812.write(pin, s)`: the single-channel encoder over the string and its length. */
  method Write(s: seq<Byte>, mhz: CpuMhz, clock: seq<Reading>) returns (r: Option<seq<Pulse>>)
    ensures r == Pulses(Emit(BitStream(WriteFrame(s)), Ws2812Profile(mhz), clock, 0, 0))
    ensures r.Some? ==> |r.value| == 8 * |WriteFrame(s)|
    ensures r.Some? ==> WellTimed(r.value, BitStream(WriteFrame(s)), Ws2812Profile(mhz), 0)
  {
    var buffer := s + [0];
    assert buffer[..|s|] == s;
    assert |s| == 0 ==> buffer[..1] == [0];
    r := EncodeBytes(buffer, |s|, Ws2812Profile(mhz), clock);
    if r.Some? {
      EmitWellTimed(BitStream(WriteFrame(s)), Ws2812Profile(mhz), clock, 0, 0);
    }
  }

  /** On an ideal counter with enough readings the strip receives the string's bytes as they are. */
  lemma WriteDelivers(s: seq<Byte>, mhz: CpuMhz, clock: seq<Reading>)
    requires |s| > 0 && Ticking(clock)
    requires 8 * |s| * Budget(Ws2812Profile(mhz)) <= |clock|
    ensures var e := Emit(BitStream(WriteFrame(s)), Ws2812Profile(mhz), clock, 0, 0);
      && e.Some?
      && ExactlyTimed(e.value.pulses, BitStream(s), Ws2812Profile(mhz), 0)
      && Pack(Decode(e.value.pulses, Ws2812Profile(mhz).t1h)) == s
  {
    EmitDelivers(s, Ws2812Profile(mhz), clock);
  }

  /** Position `i` of a whole-triplet buffer takes its byte from position `SwapIndex(i)`. */
  function SwapIndex(i: nat): (j: nat)
    ensures j / 3 == i / 3
    ensures j % 3 == 2 <==> i % 3 == 2
    ensures j == i <==> i % 3 == 2
  {
    if i % 3 == 0 then i + 1 else if i % 3 == 1 then i - 1 else i
  }

  /** R G B triplets reordered to G R B, an incomplete trailing triplet left out. */
  function GrbFrame(rgb: seq<Byte>): (r: seq<Byte>)
    ensures |r| == |rgb| - |rgb| % 3
  {
    if |rgb| < 3 then [] else [rgb[1], rgb[0], rgb[2]] + GrbFrame(rgb[3..])
  }

  /** Byte `i` of the reordered frame is byte `SwapIndex(i)` of the input. */
  lemma {:induction false} GrbFrameAt(rgb: seq<Byte>, i: nat)
    requires i < |rgb| - |rgb| % 3
    ensures SwapIndex(i) < |rgb|
    ensures GrbFrame(rgb)[i] == rgb[SwapIndex(i)]
  {
    if i >= 3 {
      GrbFrameAt(rgb[3..], i - 3);
      assert SwapIndex(i) == SwapIndex(i - 3) + 3;
    }
  }

  /** Swapping twice restores a buffer of whole triplets. */
  lemma {:induction false} GrbFrameInvolution(rgb: seq<Byte>)
    requires |rgb| % 3 == 0
    ensures GrbFrame(GrbFrame(rgb)) == rgb
  {
    if |rgb| >= 3 {
      var g := GrbFrame(rgb);
      assert g[3..] == GrbFrame(rgb[3..]);
      GrbFrameInvolution(rgb[3..]);
      assert rgb == rgb[..3] + rgb[3..];
    }
  }

  /**
    The usage examples next to the two bindings agree: `writergb` of
    (255, 0, 0) sends what `write` of (0, 255, 0) sends (the first LED red),
    and likewise for green-then-white; a trailing partial triplet is dropped.
   */
  lemma GrbFrameExamples()
    ensures GrbFrame([255, 0, 0]) == [0, 255, 0]
    ensures GrbFrame([0, 255, 0, 255, 255, 255]) == [255, 0, 0, 255, 255, 255]
    ensures GrbFrame([0xAA, 0x55, 0x11, 0x99]) == [0x55, 0xAA, 0x11]
  {
    var two: seq<Byte> := [0, 255, 0, 255, 255, 255];
    assert two[3..] == [255, 255, 255];
    var four: seq<Byte> := [0xAA, 0x55, 0x11, 0x99];
    assert four[3..] == [0x99];
  }

  /** Appending one whole triplet appends its reordered form. */
  lemma {:induction false} GrbFrameSnoc(s: seq<Byte>, r: Byte, g: Byte, b: Byte)
    requires |s| % 3 == 0
    ensures GrbFrame(s + [r, g, b]) == GrbFrame(s) + [g, r, b]
  {
    if |s| >= 3 {
      assert (s + [r, g, b])[3..] == s[3..] + [r, g, b];
      GrbFrameSnoc(s[3..], r, g, b);
    } else {
      assert s + [r, g, b] == [r, g, b];
    }
  }

  /** The copy after the swap loop has handled the first `i` bytes. */
  function SwappedUpTo(rgb: seq<Byte>, i: nat): seq<Byte>
    requires i <= |rgb|
  {
    GrbFrame(rgb[..i]) + rgb[i..]
  }

  /** One turn of the swap loop: swapping bytes `i` and `i + 1` handles one more triplet. */
  lemma SwapStep(rgb: seq<Byte>, i: nat)
    requires i % 3 == 0 && i + 3 <= |rgb|
    ensures |SwappedUpTo(rgb, i)| == |rgb|
    ensures SwappedUpTo(rgb, i)[i] == rgb[i] && SwappedUpTo(rgb, i)[i + 1] == rgb[i + 1]
    ensures SwappedUpTo(rgb, i)[i := rgb[i + 1]][i + 1 := rgb[i]] == SwappedUpTo(rgb, i + 3)
  {
    var before := GrbFrame(rgb[..i]);
    assert |before| == i;
    assert rgb[..i + 3] == rgb[..i] + [rgb[i], rgb[i + 1], rgb[i + 2]];
    GrbFrameSnoc(rgb[..i], rgb[i], rgb[i + 1], rgb[i + 2]);
    assert rgb[i..] == [rgb[i], rgb[i + 1], rgb[i + 2]] + rgb[i + 3..];
  }

  /** One turn of the swap loop: exchange bytes `i` and `i + 1` of the copy. */
  method SwapPair(buffer: seq<Byte>, i: nat, ghost rgb: seq<Byte>) returns (next: seq<Byte>)
    requires i % 3 == 0 && i + 3 <= |rgb| && buffer == SwappedUpTo(rgb, i)
    ensures next == SwappedUpTo(rgb, i + 3)
  {
    SwapStep(rgb, i);
    var r := buffer[i];
    var g := buffer[i + 1];
    next := buffer[i := g][i + 1 := r];
  }

  /**
    The pre-pass of `writergb`: copy the string, cut the length down to whole
    triplets and swap bytes `i` and `i + 1` of every triplet in the copy.
   */
  method CopyAndSwap(rgb: seq<Byte>) returns (buffer: seq<Byte>, length: nat)
    ensures |buffer| == |rgb| && length == |rgb| - |rgb| % 3
    ensures buffer[..length] == GrbFrame(rgb)
    ensures buffer[length..] == rgb[length..]
  {
    buffer := rgb;
    length := |rgb|;
    length := length - length % 3;
    var i := 0;
    assert rgb[..0] == [] && rgb[0..] == rgb;
    while i < length
      invariant i % 3 == 0 && length % 3 == 0 && i <= length <= |rgb|
      invariant buffer == SwappedUpTo(rgb, i)
    {
      buffer := SwapPair(buffer, i, rgb);
      i := i + 3;
    }
    SwappedAll(rgb);
  }

  /** When the loop ends, the copy holds the reordered frame followed by the untouched tail. */
  lemma SwappedAll(rgb: seq<Byte>)
    ensures var length := |rgb| - |rgb| % 3;
      && |SwappedUpTo(rgb, length)| == |rgb|
      && SwappedUpTo(rgb, length)[..length] == GrbFrame(rgb)
      && SwappedUpTo(rgb, length)[length..] == rgb[length..]
  {
    GrbFrameDropsTail(rgb);
  }

  /** The reordered frame only looks at the whole triplets. */
  lemma {:induction false} GrbFrameDropsTail(rgb: seq<Byte>)
    ensures GrbFrame(rgb[..|rgb| - |rgb| % 3]) == GrbFrame(rgb)
  {
    if |rgb| >= 3 {
      var w := rgb[..|rgb| - |rgb| % 3];
      assert w[3..] == rgb[3..][..|rgb[3..]| - |rgb[3..]| % 3];
      GrbFrameDropsTail(rgb[3..]);
    }
  }

  /**
    The bytes `writergb` puts on the wire as written: with fewer than three
    bytes the length becomes 0, yet the encoder still sends the copy's first byte.
   */
  function RgbSentAsWritten(rgb: seq<Byte>): seq<Byte>
    requires |rgb| >= 1
  {
    if |rgb| < 3 then rgb[..1] else GrbFrame(rgb)
  }

  /**
    `ws2812.writergb(pin, rgb)` as written. An empty string is excluded: the
    encoder would read the first byte of a zero-length copy.
   */
  method WriteRgbAsWritten(rgb: seq<Byte>, mhz: CpuMhz, clock: seq<Reading>) returns (r: Option<seq<Pulse>>)
    requires |rgb| >= 1
    ensures r == Pulses(Emit(BitStream(RgbSentAsWritten(rgb)), Ws2812Profile(mhz), clock, 0, 0))
  {
    var buffer, length := CopyAndSwap(rgb);
    assert length == 0 ==> buffer[..1] == rgb[..1];
    r := EncodeBytes(buffer, length, Ws2812Profile(mhz), clock);
  }

  /** One or two bytes, no whole triplet: the first byte still goes out, unswapped. */
  lemma RgbPartialTripletSent(rgb: seq<Byte>)
    requires 1 <= |rgb| < 3
    ensures GrbFrame(rgb) == []
    ensures RgbSentAsWritten(rgb) == [rgb[0]]
    ensures |BitStream(RgbSentAsWritten(rgb))| == 8
  {
  }

  /** `ws2812.writergb(pin, rgb)` sending exactly the whole triplets, G R B. */
  method WriteRgb(rgb: seq<Byte>, mhz: CpuMhz, clock: seq<Reading>) returns (r: Option<seq<Pulse>>)
    ensures r == Pulses(Emit(BitStream(GrbFrame(rgb)), Ws2812Profile(mhz), clock, 0, 0))
    ensures r.Some? ==> |r.value| == 8 * (|rgb| - |rgb| % 3)
    ensures r.Some? ==> WellTimed(r.value, BitStream(GrbFrame(rgb)), Ws2812Profile(mhz), 0)
    ensures |rgb| < 3 ==> r == Some([])
  {
    var buffer, length := CopyAndSwap(rgb);
    if length == 0 {
      return Some([]);
    }
    r := EncodeBytes(buffer, length, Ws2812Profile(mhz), clock);
    if r.Some? {
      EmitWellTimed(BitStream(GrbFrame(rgb)), Ws2812Profile(mhz), clock, 0, 0);
    }
  }

  /** On an ideal counter with enough readings the LEDs receive the triplets in G R B order. */
  lemma WriteRgbDelivers(rgb: seq<Byte>, mhz: CpuMhz, clock: seq<Reading>)
    requires Ticking(clock)
    requires 8 * |rgb| * Budget(Ws2812Profile(mhz)) <= |clock|
    ensures Emit(BitStream(GrbFrame(rgb)), Ws2812Profile(mhz), clock, 0, 0).Some?
    ensures Pack(Decode(Emit(BitStream(GrbFrame(rgb)), Ws2812Profile(mhz), clock, 0, 0).value.pulses,
                        Ws2812Profile(mhz).t1h))
            == GrbFrame(rgb)
  {
    var prof := Ws2812Profile(mhz);
    MulMonotone(8 * |GrbFrame(rgb)|, 8 * |rgb|, Budget(prof));
    EmitDelivers(GrbFrame(rgb), prof, clock);
  }

  /** The bytes `ws2812.writedual` sends on pin A: the first half of the string. */
  function StrandA(s: seq<Byte>): (r: seq<Byte>)
    ensures |s| >= 2 ==> r == s[..|s| / 2]
    ensures |s| < 2 ==> r == WriteFrame(s)
  {
    FrameA(s + [0], |s|)
  }

  /**
    The bytes `ws2812.writedual` sends on pin B: the second half, as long as
    the first; a string of fewer than two bytes sends the same byte as pin A.
   */
  function StrandB(s: seq<Byte>): (r: seq<Byte>)
    ensures |s| >= 2 ==> r == s[|s| / 2..2 * (|s| / 2)]
    ensures |s| < 2 ==> r == WriteFrame(s)
  {
    assert |s| >= 2 ==> (s + [0])[|s| / 2..2 * (|s| / 2)] == s[|s| / 2..2 * (|s| / 2)];
    FrameB(s + [0], |s|)
  }

  /**
    The two strands together carry the whole string when its length is even;
    an odd length loses the last byte.
   */
  lemma StrandsCover(s: seq<Byte>)
    requires |s| >= 2
    ensures |StrandA(s)| == |StrandB(s)|
    ensures |s| % 2 == 0 ==> StrandA(s) + StrandB(s) == s
    ensures |s| % 2 == 1 ==> StrandA(s) + StrandB(s) == s[..|s| - 1]
  {
    var h := |s| / 2;
    assert s[..2 * h] == s[..h] + s[h..2 * h];
    assert |s| % 2 == 0 ==> s[..2 * h] == s;
  }

  /**
    `ws2812.writedual(pin_a, pin_b, s)` as written: the 1-pin of a
    disagreeing pair of bits stays high `t01h = t0h + t1h` cycles.
   */
  method WriteDualAsWritten(s: seq<Byte>, mhz: CpuMhz, clock: seq<Reading>) returns (r: Option<seq<DualPulse>>)
    ensures r == DualPulses(DualRun(BitStream(StrandA(s)), BitStream(StrandB(s)), DualProfile(mhz),
                                    DualProfile(mhz).Mixed(), clock))
    ensures r.Some? ==> DualWellTimed(r.value, BitStream(StrandA(s)), BitStream(StrandB(s)), DualProfile(mhz),
                                      DualProfile(mhz).Mixed(), clock[0])
  {
    r := EncodeDual(s + [0], |s|, DualProfile(mhz), DualProfile(mhz).Mixed(), clock);
    if r.Some? {
      EmitDualWellTimed(BitStream(StrandA(s)), BitStream(StrandB(s)), DualProfile(mhz),
                        DualProfile(mhz).Mixed(), clock, 1, clock[0]);
    }
  }

  /**
    `ws2812.writedual(pin_a, pin_b, s)` with the 1-pin of a disagreeing pair
    falling `t1h` cycles after the shared rise: each pin on its own obeys the
    single-channel timing rules for its strand.
   */
  method WriteDual(s: seq<Byte>, mhz: CpuMhz, clock: seq<Reading>) returns (r: Option<seq<DualPulse>>)
    ensures r == DualPulses(DualRun(BitStream(StrandA(s)), BitStream(StrandB(s)), DualProfile(mhz),
                                    DualProfile(mhz).t1h, clock))
    ensures r.Some? ==> |clock| > 0 && |r.value| == 8 * |StrandA(s)|
    ensures r.Some? ==> WellTimed(ChannelA(r.value), BitStream(StrandA(s)), DualProfile(mhz), clock[0])
    ensures r.Some? ==> WellTimed(ChannelB(r.value), BitStream(StrandB(s)), DualProfile(mhz), clock[0])
  {
    var prof := DualProfile(mhz);
    r := EncodeDual(s + [0], |s|, prof, prof.t1h, clock);
    if r.Some? {
      EmitDualWellTimed(BitStream(StrandA(s)), BitStream(StrandB(s)), prof, prof.t1h, clock, 1, clock[0]);
      ChannelsWellTimed(r.value, BitStream(StrandA(s)), BitStream(StrandB(s)), prof, prof.t1h, clock[0]);
    }
  }

  /**
    On an ideal counter with enough readings, each strip receives its strand,
    with every period exactly `ttot` and every high time exactly the bit's.
   */
  lemma WriteDualDelivers(s: seq<Byte>, mhz: CpuMhz, clock: seq<Reading>)
    requires Ticking(clock)
    requires 1 + 8 * |StrandA(s)| * Budget(DualProfile(mhz)) <= |clock|
    ensures var prof := DualProfile(mhz);
      var e := DualRun(BitStream(StrandA(s)), BitStream(StrandB(s)), prof, prof.t1h, clock);
      && e.Some?
      && ExactlyTimed(ChannelA(e.value.pulses), BitStream(StrandA(s)), prof, clock[0])
      && ExactlyTimed(ChannelB(e.value.pulses), BitStream(StrandB(s)), prof, clock[0])
      && Pack(Decode(ChannelA(e.value.pulses), prof.t1h)) == StrandA(s)
      && Pack(Decode(ChannelB(e.value.pulses), prof.t1h)) == StrandB(s)
  {
    var prof := DualProfile(mhz);
    DualDelivers(StrandA(s), StrandB(s), prof, prof.t1h, clock);
    var e := DualRun(BitStream(StrandA(s)), BitStream(StrandB(s)), prof, prof.t1h, clock);
    ExactChannels(e.value.pulses, BitStream(StrandA(s)), BitStream(StrandB(s)), prof, clock[0]);
    DualDecodes(StrandA(s), StrandB(s), prof, clock);
  }

  /**
    The string (0x80, 0x00) at 80 MHz on an ideal counter: the first bits
    disagree (1 on pin A, 0 on pin B). As written, pin A stays high 84 cycles,
    1.05 us, outside the T1H window; with the fall at `t1h` it stays high 56.
   */
  lemma MixedPairScenario(clock: seq<Reading>)
    requires Ticking(clock) && 1 + 8 * Budget(DualProfile(80)) <= |clock|
    ensures var s: seq<Byte> := [0x80, 0x00];
      var prof := DualProfile(80);
      var asWritten := DualRun(BitStream(StrandA(s)), BitStream(StrandB(s)), prof, prof.Mixed(), clock);
      var corrected := DualRun(BitStream(StrandA(s)), BitStream(StrandB(s)), prof, prof.t1h, clock);
      && asWritten.Some? && corrected.Some?
      && HighTime(PinA(asWritten.value.pulses[0])) == 84
      && !T1hInWindow(80, HighTime(PinA(asWritten.value.pulses[0])))
      && HighTime(PinA(corrected.value.pulses[0])) == 56
      && T1hInWindow(80, HighTime(PinA(corrected.value.pulses[0])))
  {
    var s: seq<Byte> := [0x80, 0x00];
    var prof := DualProfile(80);
    var a: seq<Byte> := [0x80];
    var b: seq<Byte> := [0x00];
    assert StrandA(s) == a && StrandB(s) == b;
    StreamIndex(a, 0, 0);
    StreamIndex(b, 0, 0);
    assert Bit(0x80, 0) && !Bit(0x00, 0);
    DualMixedHighOutOfWindow(80);
    DualDelivers(a, b, prof, prof.Mixed(), clock);
    DualDelivers(a, b, prof, prof.t1h, clock);
  }
}

=== FILE: ws281x.dfy ===
/**
  The shared single-pin driver `ws281x_write(pin, pixels, length, is_ws2812)`:
  the same bit loop as the `ws2812` module with the profile of the chosen
  variant (the header maps `ws2811_write` to `is_ws2812 = 0` and
  `ws2812_write` to `is_ws2812 = 1`).
 */
module Ws281x {
  import opened Wrappers
  import opened CycleClock
  import opened Bits
  import opened Timing
  import opened PulseTrain

  /** The bytes the driver sends: `pixels[0]` is read before the end test, so at least one. */
  function DriverFrame(pixels: seq<Byte>, length: nat): seq<Byte>
    requires 1 <= |pixels| && length <= |pixels|
  {
    if length == 0 then pixels[..1] else pixels[..length]
  }

  /**
    `ws281x_write` as written: every byte of the frame, MSB first, one pulse per
    bit, with the variant's period floor between rising edges; the WS2811 period
    uses divisor 667.
   */
  method Write(pixels: seq<Byte>, length: nat, mhz: CpuMhz, v: Variant, clock: seq<Reading>)
    returns (r: Option<seq<Pulse>>)
    requires 1 <= |pixels| && length <= |pixels|
    ensures r == Pulses(Emit(BitStream(DriverFrame(pixels, length)), Ws281xProfileAsWritten(mhz, v), clock, 0, 0))
    ensures r.Some? ==> |r.value| == 8 * |DriverFrame(pixels, length)|
    ensures r.Some? ==> WellTimed(r.value, BitStream(DriverFrame(pixels, length)), Ws281xProfileAsWritten(mhz, v), 0)
  {
    r := EncodeBytes(pixels, length, Ws281xProfileAsWritten(mhz, v), clock);
    if r.Some? {
      EmitWellTimed(BitStream(DriverFrame(pixels, length)), Ws281xProfileAsWritten(mhz, v), clock, 0, 0);
    }
  }

  /**
    On an ideal counter with enough readings the frame goes out completely, every
    period lasts exactly the variant's `ttot` as written (119 or 239 cycles for
    WS2811), and a receiver recovers the frame.
   */
  lemma WriteDelivers(pixels: seq<Byte>, length: nat, mhz: CpuMhz, v: Variant, clock: seq<Reading>)
    requires 1 <= |pixels| && length <= |pixels|
    requires Ticking(clock)
    requires 8 * |DriverFrame(pixels, length)| * Budget(Ws281xProfileAsWritten(mhz, v)) <= |clock|
    ensures var bits := BitStream(DriverFrame(pixels, length));
      var e := Emit(bits, Ws281xProfileAsWritten(mhz, v), clock, 0, 0);
      && e.Some?
      && ExactlyTimed(e.value.pulses, bits, Ws281xProfileAsWritten(mhz, v), 0)
      && Pack(Decode(e.value.pulses, Ws281xProfileAsWritten(mhz, v).t1h)) == DriverFrame(pixels, length)
  {
    EmitDelivers(DriverFrame(pixels, length), Ws281xProfileAsWritten(mhz, v), clock);
  }

  /**
    `ws281x_write` with the WS2811 divisor 666: the same frame, and every pair of
    consecutive rising edges at least the variant's required period apart.
   */
  method WriteCorrected(pixels: seq<Byte>, length: nat, mhz: CpuMhz, v: Variant, clock: seq<Reading>)
    returns (r: Option<seq<Pulse>>)
    requires 1 <= |pixels| && length <= |pixels|
    ensures r == Pulses(Emit(BitStream(DriverFrame(pixels, length)), Ws281xProfile(mhz, v), clock, 0, 0))
    ensures r.Some? ==> |r.value| == 8 * |DriverFrame(pixels, length)|
    ensures r.Some? ==> WellTimed(r.value, BitStream(DriverFrame(pixels, length)), Ws281xProfile(mhz, v), 0)
    ensures r.Some? ==> Ws281xProfile(mhz, v).PeriodAtLeast(mhz, RequiredPeriodNs(v))
  {
    r := EncodeBytes(pixels, length, Ws281xProfile(mhz, v), clock);
    if r.Some? {
      EmitWellTimed(BitStream(DriverFrame(pixels, length)), Ws281xProfile(mhz, v), clock, 0, 0);
    }
  }

  /** The correction changes only the WS2811 period: for WS2812 both drivers agree. */
  lemma CorrectionKeepsWs2812(mhz: CpuMhz)
    ensures Ws281xProfile(mhz, Ws2812) == Ws281xProfileAsWritten(mhz, Ws2812)
    ensures Ws281xProfile(mhz, Ws2811).ttot == Ws281xProfileAsWritten(mhz, Ws2811).ttot + 1
  {
  }
}
